=== FILE: README.md ===
# Local launchers and GitHub publisher, modelled in Dafny

This project models the helper scripts of a web platform's repository:

- the two local launchers, `dev-local.js` and `db-push-local.js`;
- the one-shot publisher `push-to-github.js`.

Each launcher does four things:

- reads `.env.local` with a small hand-written parser (`loadEnvFile`);
- overlays the result on the inherited environment;
- starts a child process: the dev server, or `drizzle-kit push`;
- exits as the child does; the model treats a child killed by a signal as a failure (see Findings).

The publisher does the following:

- obtains a GitHub access token from the connector service, keeping a module-level cache;
- asks GitHub for the authenticated user (`getAuthenticated`), whose login owns the repository;
- creates the repository, or fetches it when it already exists;
- walks the working tree, skipping hidden and build directories;
- reads every file into a Git tree of blobs and uploads it;
- commits on top of `main` if it exists;
- creates or moves the branch.

Each piece is a pure function or a method over immutable data. Everything the scripts get from outside is a parameter:

- the file system: whether `.env.local` exists and its text, the directory listing, file contents;
- the inherited environment and the clock;
- the connector's answer and GitHub's answers;
- how the child process ended.

Modules, one per file:

- `Wrappers`: `Option` and `Result`.
- `JsText`: the JavaScript string operations the scripts rely on. These are `String.prototype.trim` with the ECMAScript whitespace set, `split` at a character and `join` with it, and truthiness of possibly-undefined strings. A first-occurrence search, which the scripts do not call, describes where `split` cuts; `EnvFile.ParseLineMatchesSplit` shows that cutting a line at its first `=` is the same as the script's `split('=')` followed by `join('=')` of the tail.
- `EnvFile`: `loadEnvFile`. It is the same in both launchers (lines 8-28 of each).
- `EnvOverlay`: the object spreads that build each child's environment.
- `Launchers`: the whole run of each launcher, from `.env.local` to the exit code.
- `FileWalk`: `getAllFiles`. It comes with an independent description of the files it yields, and a proof that the two agree.
- `GitTree`: the blob entries and the `./` strip.
- `GitHubAuth`: `getAccessToken`, both as written and as evidently intended (see Findings).
- `Publish`: `createGitHubRepository` and the final exit code.

## Model

| member | source | states |
|---|---|---|
| JsText.TrimCharacterization | dev-local.js:18 | a string is the trim of a line exactly when it is the line minus a maximal run of leading and a maximal run of trailing ECMAScript whitespace |
| JsText.TrimIdempotent | dev-local.js:18-22 | trimming twice is trimming once |
| JsText.TrimEmptyIffAllSpace | dev-local.js:18-19 | a line counts as blank exactly when every character of it is whitespace |
| JsText.TrimIgnoresTrailingSpace | dev-local.js:18 | trailing whitespace, such as the carriage return of a CRLF file, does not change the trimmed line |
| JsText.TrimIgnoresLeadingSpace | dev-local.js:18 | indentation does not change the trimmed line |
| JsText.IndexOf | dev-local.js:20 | the point where `split` cuts is the first occurrence of the separator: absent exactly when the text has none, otherwise a separator with none before it |
| JsText.SplitOn | dev-local.js:17 | splitting the file at `\n` gives at least one line, no line holds a `\n`, and joining the lines with `\n` gives the file back |
| JsText.SplitJoinRoundTrip | dev-local.js:17 | splitting the `\n`-join of newline-free lines gives those lines back |
| EnvFile.ParseLineMatchesSplit | dev-local.js:20-22 | splitting the trimmed line at every `=`, keeping it when the first piece is non-empty and another piece follows, and re-joining the later pieces with `=`, gives the same pair as cutting at the first `=` |
| EnvFile.ParseLineAccepts | dev-local.js:18-21 | a line yields a pair exactly when, trimmed, it is not blank, does not start with `#`, and has an `=` that is not its first character |
| EnvFile.ParseLineSplitsAtFirstEquals | dev-local.js:20-22 | key and value are the trimmed text before and after the first `=`, later `=` belonging to the value |
| EnvFile.ParseLineValid | dev-local.js:18-22 | a recorded key is non-empty, trimmed, free of `=` and does not start with `#`; a recorded value is trimmed |
| EnvFile.LoadLinesSpec | dev-local.js:15-27 | a key is in the map exactly when some line sets it, and its value is the one from the last such line |
| EnvFile.IgnoredLineChangesNothing | dev-local.js:19-21 | appending a blank, comment or `=`-less line leaves the map unchanged |
| EnvFile.LineTouchesOnlyItsKey | dev-local.js:22 | an appended assignment sets its own key and leaves every other key as it was |
| EnvFile.LoadEnvShape | dev-local.js:17-22 | every key of the loaded map is a valid key, and every value is trimmed and free of newlines |
| EnvFile.ParseFormattedLine | dev-local.js:18-22 | the line `k=v` for a valid key `k` parses to key `k` and value `v` trimmed |
| EnvFile.LoadFormatRoundTrip | dev-local.js:14-27 | loading the newline-joined `k=v` lines of a list of pairs gives the map that assigns those pairs in order, the last assignment winning |
| EnvFile.LoadEnvFile | dev-local.js:8-28 | a missing file stops the launcher; otherwise the loop over the lines builds exactly the map of the line-by-line description |
| EnvFile.TrailingSpaceIgnored | dev-local.js:18 | trailing whitespace on a line, such as the carriage return of a CRLF file, changes nothing about what the line sets |
| EnvFile.LeadingSpaceIgnored | dev-local.js:18-19 | indentation changes nothing about what a line sets, so an indented comment is still a comment |
| EnvFile.CommentSetsNothing | dev-local.js:19 | a line starting with `#` sets nothing, whatever `=` it contains |
| EnvFile.LoadEnvScenario | dev-local.js:14-27 | a file holding an assignment, a comment, a blank line and a second assignment whose value may contain `=` loads as exactly those two pairs, the second winning on a shared key |
| EnvOverlay.Overlay | dev-local.js:37-38 | a spread of `top` after `base` keeps every key of either, `top` winning where both have one |
| EnvOverlay.OverlayIdempotent | dev-local.js:37-38 | spreading the same object twice is spreading it once |
| EnvOverlay.OverlayAssociative | dev-local.js:36-40 | consecutive spreads may be grouped either way |
| EnvOverlay.DevChildEnv | dev-local.js:36-40 | the dev server sees `NODE_ENV=development`, the file's variables over the inherited ones, and nothing else |
| EnvOverlay.FileCannotOverrideDevMode | dev-local.js:38-39 | a `NODE_ENV` line in the file has no effect on the dev server's environment |
| EnvOverlay.InheritedCannotOverrideDevMode | dev-local.js:37-39 | an inherited `NODE_ENV` has no effect on the dev server's environment |
| EnvOverlay.DbPushChildEnv | db-push-local.js:38-41 | the schema push sees the file's variables over the inherited ones, and nothing else |
| EnvOverlay.LaunchersAgreeOffNodeEnv | db-push-local.js:38-41 | apart from `NODE_ENV` the two launchers give their children the same environment |
| Launchers.DevLocal | dev-local.js:31-51 | without the file nothing starts and the exit code is 1; otherwise `npx tsx server/index.ts` starts with the overlaid environment; a spawn error exits 1 and a close exits with the child's code, and a child killed by a signal exits 1 (see Findings), so the launcher exits 0 exactly when the file exists and the child exits 0 |
| Launchers.ChildExitAsWritten | dev-local.js:43-51 | as written the launcher exits 0 exactly when the child closed with 0 or was killed by a signal; a closed child's code is passed on and a spawn error exits 1 |
| Launchers.ChildExit | dev-local.js:43-51 | the launcher exits 0 exactly when the child closed with 0; apart from a signal it exits as the source does |
| Launchers.SignalledChildExitsZero | db-push-local.js:49-54 | as written a child killed by a signal makes the launcher exit 0, and the schema push then exits 0 without announcing success; the corrected launchers exit 1 |
| Launchers.DbPushLocal | db-push-local.js:31-54 | as for the dev launcher with `npx drizzle-kit push` and no forced mode; success is announced exactly when the child closes with 0, which is exactly when the launcher exits 0 |
| Launchers.SampleFileScenario | db-push-local.js:31-54 | for such a file with two distinct keys other than `NODE_ENV`, both children see both values whatever they inherited, and a child exiting 3 makes both launchers exit 3 without announcing success |
| FileWalk.GetAllFilesSpec | push-to-github.js:49-72 | the walk appends to the accumulator exactly the paths of the files none of whose path components is skipped, in depth-first listing order |
| FileWalk.VisitSpec | push-to-github.js:52-68 | one entry of a listing contributes exactly its allowed files' paths: none for a skipped name, its own path for a file, its subtree's for a directory |
| FileWalk.KeepAllowedPrefixed | push-to-github.js:55-65 | the reference filter keeps nothing under a skipped name, and exactly the allowed routes under any other name |
| FileWalk.AccumulatorIndependent | push-to-github.js:49-67 | what the walk finds does not depend on what the accumulator already held |
| FileWalk.WalkMembership | push-to-github.js:53-68 | a path is yielded exactly when some file's route has no hidden or excluded name and renders to that path |
| FileWalk.WalkNeverDotted | push-to-github.js:53-111 | walking from `.` never yields a path that starts with a dot |
| GitTree.StripDotSlash | push-to-github.js:118 | a path starting with `./` loses exactly those two characters; any other path is kept |
| GitTree.StripRemovesOne | push-to-github.js:118 | the pattern is anchored and not global, so `././a` becomes `./a` |
| GitTree.StripKeepsUndotted | push-to-github.js:118 | a path that does not start with a dot is left unchanged by the strip |
| GitTree.StripIsIdentityOnWalk | push-to-github.js:111-118 | on the walk's output the strip changes no path |
| GitTree.FirstUnreadable | push-to-github.js:116-117 | the first file whose read throws, or none exactly when every read succeeds |
| GitTree.TreeOf | push-to-github.js:115-126 | the tree is one blob entry per file, in order, exactly when every read succeeds; otherwise it fails naming the first unreadable file |
| GitTree.BuildTree | push-to-github.js:115-126 | the tree has one `100644` blob entry per file, in order, with the stripped path and the file's content; the first read that throws ends the step with that file's path; the loop builds exactly the tree described by `TreeOf` |
| GitTree.TreePathsAreWalkPaths | push-to-github.js:111-126 | the tree entries' paths are the walk's paths unchanged |
| GitHubAuth.TokenHeader | push-to-github.js:13-21 | the header is `repl ` plus a non-empty `REPL_IDENTITY`, else `depl ` plus a non-empty `WEB_REPL_RENEWAL`, else the call fails with the missing-token error |
| GitHubAuth.HeaderRoundTrip | push-to-github.js:13-17 | the header names the variable it came from, and its remainder is that variable's non-empty value |
| GitHubAuth.IdentityTakesPrecedence | push-to-github.js:13-16 | with `REPL_IDENTITY` set, changing or removing `WEB_REPL_RENEWAL` does not change the header |
| GitHubAuth.HeaderIgnoresOtherVariables | push-to-github.js:13-17 | no other variable affects the header |
| GitHubAuth.PickToken | push-to-github.js:33 | the chosen token is `access_token` when that is truthy and the OAuth credential's token otherwise, so it is truthy exactly when one of the two is |
| GitHubAuth.Choose | push-to-github.js:33-38 | with optional chaining on both operands, the call resolves exactly when the item has settings with a truthy token, and then with the token picked from those settings; otherwise it rejects as not connected |
| GitHubAuth.ChooseAgreesOnItems | push-to-github.js:33-38 | the written and corrected choices differ only when the connector returned no item |
| GitHubAuth.GetAccessTokenAsWritten | push-to-github.js:7-39 | as written, a fresh cached item answers with its `access_token` without a request; a cached item without settings rejects with a TypeError without a request; otherwise a request is made exactly when a header is available, the fetched item is then cached, and the call rejects with a TypeError when the connector returned no item and otherwise answers with the choice of lines 33-38; it rejects for a missing token exactly in the remaining case without a header; when no request is made the cache is left as it was, so a cached item without settings keeps every later call throwing |
| GitHubAuth.ExpiredCallRequests | push-to-github.js:8-31 | with nothing cached, or a cached item whose `expires_at` is missing or not later than now, every call from now on with a header available asks the connector again, carrying that header, both as written and as intended |
| GitHubAuth.GetAccessToken | push-to-github.js:7-39 | the corrected call resolves only to a truthy token and never with a TypeError. A cache hit answers with the choice of lines 33-38 applied to the cached item; a request is made exactly on a cache miss with a header available, carries that header, and the call then answers with the choice applied to the fetched item. The cache is replaced by the fetched item exactly when a request is made |
| GitHubAuth.CacheIsTransparent | push-to-github.js:7-38 | a corrected call before expiry answers as the call that filled the cache did, without a request |
| GitHubAuth.RequestCarriesHeader | push-to-github.js:23-31 | any request the call as written makes carries the header of lines 13-17 |
| GitHubAuth.AsWrittenAgreesOnFetch | push-to-github.js:7-39 | on a cache miss, with a fetched item and no settings-less cached item, the written and corrected calls agree |
| GitHubAuth.NoItemIsTypeError | push-to-github.js:31-36 | with no item in the connector's answer the call as written rejects with a TypeError, the corrected one as not connected |
| GitHubAuth.CacheDropsOAuthToken | push-to-github.js:8-10 | an OAuth-only connection resolves to its token when fetched, and to `undefined` from the cache as written |
| GitHubAuth.StoredItemWithoutSettings | push-to-github.js:8 | an item without settings is cached although the call rejects; the next call as written then throws a TypeError instead of fetching again |
| Publish.CreateGitHubRepository | push-to-github.js:74-84 | without a token nothing is requested and the push fails with the token error; with one, the first request is `getAuthenticated`, and its failure ends the push |
| Publish.EnsureRepo | push-to-github.js:86-108 | the repository is created; on 422 it is fetched instead, and that fetch is made exactly on 422, so the log is `[createRepo]` alone in every other case; any other failure propagates |
| Publish.ParentLookup | push-to-github.js:136-151 | the parent is the sha `heads/main` points at; 404 means no parent; any other failure propagates |
| Publish.CommitParents | push-to-github.js:154-163 | the commit has parents exactly when the parent sha is truthy, and then that single sha |
| Publish.RefWrite | push-to-github.js:167-188 | with a truthy parent `heads/main` is updated, otherwise `refs/heads/main` is created, in both cases at the new commit |
| Publish.ParentsMatchRefWrite | push-to-github.js:161-185 | the commit has a parent exactly when the branch is moved rather than created |
| Publish.Upload | push-to-github.js:128-188 | the upload starts with the tree request for the given entries and, on success, resolves with the repository |
| Publish.ExitZeroIffAllStepsSucceed | push-to-github.js:74-211 | the script exits 0 exactly when every step succeeds, counting a 422 on creation followed by a successful fetch, and a 404 on the branch lookup, as success |
| Publish.SuccessfulPushShape | push-to-github.js:74-185 | a successful push makes exactly these requests in order: `getAuthenticated`, the repository step, the tree request, the branch lookup, the commit on the new tree, and the ref write matching the parent |
| Publish.MissingBranchCreatesRef | push-to-github.js:145-185 | with no `main` yet the commit has no parents and `refs/heads/main` is created |
| Publish.ExistingBranchUpdatesRef | push-to-github.js:136-176 | with `main` at a sha the commit's only parent is that sha and `heads/main` is updated |
| Publish.FailuresStopEarly | push-to-github.js:74-126 | nothing is requested from GitHub without an access token, and no tree is uploaded when a file read fails |
| Publish.UploadCarriesWalk | push-to-github.js:110-133 | once the repository exists and every walked file reads, `createTree` receives one blob per file the walk from `.` yields, in walk order, under the walked path itself and with the file's content |
| Publish.UnreadableFileStopsPush | push-to-github.js:110-126 | a walked file that cannot be read ends the push before `createTree`, naming the first such file in walk order |

## Left out

- Console output and `stdio: 'inherit'` are left out, since neither affects results.
- File system access is left out:
  - `existsSync`/`readFileSync` of `.env.local` become "the text, if the file exists";
  - a read that throws after the existence check, and UTF-8 decoding, are not modelled.
- Launchers.DevLocal: exit codes are passed through without the operating system's reduction modulo 256. Which signal killed the child is not modelled.
- Launchers.DbPushLocal: the same simplifications.
- EnvFile.LoadEnv: a line whose key is `__proto__` is recorded in the model. In the script that assignment goes to the object's prototype setter and the string value is dropped.
- FileWalk.GetAllFiles:
  - the listing is given as a finite tree, in `readdirSync` order;
  - `readdirSync`/`statSync` errors and symbolic-link cycles are not modelled;
  - `path.join` normalisation is modelled only for joining onto `.`, since a listing name never contains `/` and is never `.` or `..`.
- GitHubAuth: the connector request's URL, built from `REPLIT_CONNECTORS_HOSTNAME`, is left out. So are network and JSON errors from `fetch`.
- GitHubAuth: `expires_at` is taken as already converted to milliseconds. A missing, empty or unparsable date fails the freshness test, as `NaN > now` does.
- `getUncachableGitHubClient` and Octokit are left out. The client is built from whatever token the call resolves with; an unusable token shows up as GitHub's answer to `getAuthenticated`.
- Publish.CreateGitHubRepository: each endpoint's answer is a fixed parameter and does not depend on the request's arguments. The arguments are recorded in the call log instead. Response fields used only in log messages (`html_url`) are opaque.
- `backfill-passwords.js` is not part of this model.

## Findings

A launcher whose child is terminated by a signal is meant to report failure with a non-zero status. The code exits 0 in that case (finding 1). The launchers model the intended behaviour, and `Launchers.ChildExitAsWritten` models the code as written.

Findings 3 and 4 need `getAccessToken` to run twice in one process. The script as shipped calls it once per run, so among the publisher's findings only finding 2 is reachable from the script itself.

| source | as written | input that shows it | evidently intended | confidence | as-written member | corrected member |
|---|---|---|---|---|---|---|
| dev-local.js:49-51 | `process.exit(code)` on `close`, where `code` is `null` for a child killed by a signal; Node then exits 0 (the same at db-push-local.js:49-54) | the child is killed by SIGTERM or SIGKILL | exit with a non-zero status, as for a child that could not start | not executed | Launchers.SignalledChildExitsZero | Launchers.ChildExit |
| push-to-github.js:33 | the right operand of `\|\|` reads `connectionSettings.settings` without `?.` | the connector answers with an empty `items` list, `REPL_IDENTITY` set | reject with 'GitHub not connected', as lines 35-36 check | not executed | GitHubAuth.NoItemIsTypeError | GitHubAuth.GetAccessToken |
| push-to-github.js:9 | a cache hit returns `settings.access_token` only, without the OAuth fallback of line 33 | a connection whose only token is `oauth.credentials.access_token`, called again before `expires_at` | return the same token as the call that filled the cache | not executed | GitHubAuth.CacheDropsOAuthToken | GitHubAuth.CacheIsTransparent |
| push-to-github.js:8 | `connectionSettings.settings.expires_at` is read without `?.`, although line 23 caches the item before line 35 rejects it | a first call whose item has no `settings` (it rejects, but the item stays cached), then a second call | treat the cached item as stale and ask the connector again | not executed | GitHubAuth.StoredItemWithoutSettings | GitHubAuth.GetAccessToken |

=== FILE: env_file.dfy ===
/** `loadEnvFile` of the two local launchers (identical in both scripts): the
    text of `.env.local` becomes a map from variable name to value. */
module EnvFile {
  import opened Wrappers
  import opened JsText

  type Env = map<string, string>

  datatype Binding = Binding(key: string, value: string)

  /** Why the loader stops the launcher instead of returning a map. */
  datatype LoadError = EnvFileMissing

  /** A key the loader can record: non-empty, trimmed, free of `=`, and not
      starting with `#` (such a line would have been a comment). */
  predicate ValidKey(k: string) {
    k != [] && IsTrimmed(k) && '=' !in k && k[0] != '#'
  }

  /** `i` is the position of the first `=` of `t`. */
  predicate FirstEquals(t: string, i: int) {
    0 <= i < |t| && t[i] == '=' && '=' !in t[..i]
  }

  /** A trimmed line the loader turns into a binding: not blank, not a comment,
      with an `=` that is not its first character. */
  predicate IsAssignment(t: string) {
    t != [] && t[0] != '#' && '=' in t && t[0] != '='
  }

  /** The body of the `forEach` callback for one line: trim it, skip blanks and
      comments, split at the first `=` only, and keep the pair when the part
      before it is non-empty; key and value are trimmed. */
  function ParseLine(line: string): Option<Binding> {
    var t := Trim(line);
    if t == [] || t[0] == '#' then None
    else match IndexOf(t, '=')
      case None => None
      case Some(i) =>
        if i == 0 then None
        else Some(Binding(Trim(t[..i]), Trim(t[i + 1..])))
  }

  /** Both directions: a line yields a pair exactly when its trimmed form is
      neither blank nor a comment and has an `=` after a non-empty key part. */
  lemma ParseLineAccepts(line: string)
    ensures ParseLine(line).Some? <==> IsAssignment(Trim(line))
  {
  }

  /** Only the first `=` splits the line: the key is the trimmed text before it
      and the value the trimmed text after it, later `=` characters included. */
  lemma ParseLineSplitsAtFirstEquals(line: string)
    ensures ParseLine(line).Some? ==>
      exists i :: FirstEquals(Trim(line), i)
        && ParseLine(line).value == Binding(Trim(Trim(line)[..i]), Trim(Trim(line)[i + 1..]))
  {
    var t := Trim(line);
    if ParseLine(line).Some? {
      var i := IndexOf(t, '=').value;
      assert FirstEquals(t, i);
    }
  }

  /** A recorded key is never empty, is trimmed, holds no `=` and does not start
      with `#`; a recorded value is trimmed. */
  lemma ParseLineValid(line: string)
    ensures ParseLine(line).Some? ==> ValidKey(ParseLine(line).value.key) && IsTrimmed(ParseLine(line).value.value)
  {
    var t := Trim(line);
    if ParseLine(line).Some? {
      var i := IndexOf(t, '=').value;
      KeyPartValid(line, t, i);
      TrimSpec(t[i + 1..]);
    }
  }

  /** The key of a trimmed, non-blank, non-comment line cut before its first `=`
      keeps the line's first character and has no `=`. */
  lemma KeyPartValid(line: string, t: string, i: int)
    requires t == Trim(line) && t != [] && t[0] != '#'
    requires 0 < i <= |t| && '=' !in t[..i]
    ensures ValidKey(Trim(t[..i]))
  {
    TrimSpec(line);
    TrimSpec(t[..i]);
    assert !IsSpace(t[0]);
    assert t[..i][0] == t[0];
    TrimKeepsFirst(t[..i]);
    TrimKeepsContents(t[..i], '=');
    TrimmedIsFixed(Trim(t[..i]));
  }

  /** The callback as the script writes it: split the trimmed line at every
      `=`, keep it when the first piece is non-empty and at least one piece
      follows, and glue the later pieces back together with `=`. */
  function ParseLineBySplit(line: string): Option<Binding> {
    var t := Trim(line);
    if t == [] || t[0] == '#' then None
    else
      var parts := SplitOn(t, '=');
      if parts[0] != [] && |parts| > 1 then
        Some(Binding(Trim(parts[0]), Trim(JoinWith(parts[1..], '='))))
      else None
  }

  /** Cutting at the first `=` is the same as splitting at every `=` and
      joining the tail back: both readings of a line agree on every line. */
  lemma ParseLineMatchesSplit(line: string)
    ensures ParseLine(line) == ParseLineBySplit(line)
  {
    var t := Trim(line);
    if t != [] && t[0] != '#' {
      match IndexOf(t, '=')
      case None =>
        assert SplitOn(t, '=') == [t];
      case Some(i) =>
        var rest := SplitOn(t[i + 1..], '=');
        assert SplitOn(t, '=') == [t[..i]] + rest;
        assert ([t[..i]] + rest)[1..] == rest;
    }
  }

  /** The result of the callback for every line, in order. */
  function ParseLines(lines: seq<string>): (ps: seq<Option<Binding>>)
    ensures |ps| == |lines|
  {
    seq(|lines|, i requires 0 <= i < |lines| => ParseLine(lines[i]))
  }

  /** One step of the `forEach`: record a parsed pair, overwriting an earlier value. */
  function Record(env: Env, p: Option<Binding>): Env {
    match p
    case None => env
    case Some(b) => env[b.key := b.value]
  }

  /** The map after recording the parsed lines in order. */
  function Assign(ps: seq<Option<Binding>>): Env {
    if |ps| == 0 then map[] else Record(Assign(ps[..|ps| - 1]), ps[|ps| - 1])
  }

  /** The map after processing `lines` in order. */
  function LoadLines(lines: seq<string>): Env {
    Assign(ParseLines(lines))
  }

  /** The map `loadEnvFile` returns for a file with this text, split on `\n`. */
  function LoadEnv(content: string): Env {
    LoadLines(SplitOn(content, '\n'))
  }

  /** Whether a parsed line sets key `k`. */
  predicate Sets(p: Option<Binding>, k: string) {
    p.Some? && p.value.key == k
  }

  /** Entry `i` sets `b` and no later entry sets the same key: the one whose value survives. */
  ghost predicate Wins(ps: seq<Option<Binding>>, i: int, b: Binding) {
    && 0 <= i < |ps|
    && ps[i] == Some(b)
    && forall j :: i < j < |ps| ==> !Sets(ps[j], b.key)
  }

  /** The declarative meaning of recording in order: a key is present exactly
      when some entry sets it, and its value is the one set by the last such entry. */
  lemma {:induction false} AssignSpec(ps: seq<Option<Binding>>, k: string)
    ensures k in Assign(ps) <==> exists i :: 0 <= i < |ps| && Sets(ps[i], k)
    ensures k in Assign(ps) ==> exists i :: Wins(ps, i, Binding(k, Assign(ps)[k]))
    ensures forall i, v :: Wins(ps, i, Binding(k, v)) ==> k in Assign(ps) && Assign(ps)[k] == v
  {
    if |ps| > 0 {
      var n := |ps| - 1;
      var init := ps[..n];
      AssignSpec(init, k);
      assert forall i :: 0 <= i < n ==> init[i] == ps[i];
      if Sets(ps[n], k) {
        assert Wins(ps, n, Binding(k, Assign(ps)[k]));
        forall i, v | Wins(ps, i, Binding(k, v))
          ensures k in Assign(ps) && Assign(ps)[k] == v
        {
          assert i == n;
        }
      } else {
        if k in Assign(ps) {
          var i :| Wins(init, i, Binding(k, Assign(init)[k]));
          assert Wins(ps, i, Binding(k, Assign(ps)[k]));
        }
        forall i, v | Wins(ps, i, Binding(k, v))
          ensures k in Assign(ps) && Assign(ps)[k] == v
        {
          assert Wins(init, i, Binding(k, v));
        }
      }
    }
  }

  /** The loader's map read line by line: a key is present exactly when some
      line sets it, and holds the value of the last line that sets it. */
  lemma LoadLinesSpec(lines: seq<string>, k: string)
    ensures k in LoadLines(lines) <==> exists i :: 0 <= i < |lines| && Sets(ParseLine(lines[i]), k)
    ensures k in LoadLines(lines) ==> exists i :: Wins(ParseLines(lines), i, Binding(k, LoadLines(lines)[k]))
    ensures forall i, v :: Wins(ParseLines(lines), i, Binding(k, v)) ==> k in LoadLines(lines) && LoadLines(lines)[k] == v
  {
    AssignSpec(ParseLines(lines), k);
    assert forall i :: 0 <= i < |lines| ==> ParseLines(lines)[i] == ParseLine(lines[i]);
  }

  lemma ParseLinesAppend(lines: seq<string>, line: string)
    ensures ParseLines(lines + [line]) == ParseLines(lines) + [ParseLine(line)]
    ensures ParseLines(lines + [line])[..|lines|] == ParseLines(lines)
  {
  }

  /** A blank or comment line, or one without a usable `=`, leaves the map as it was. */
  lemma IgnoredLineChangesNothing(lines: seq<string>, line: string)
    requires !IsAssignment(Trim(line))
    ensures LoadLines(lines + [line]) == LoadLines(lines)
  {
    ParseLinesAppend(lines, line);
    ParseLineAccepts(line);
  }

  /** A later line sets its own key to its own value, overwriting any earlier
      value, and leaves every other key alone. */
  lemma LineTouchesOnlyItsKey(lines: seq<string>, line: string, k: string)
    ensures Sets(ParseLine(line), k) ==>
      k in LoadLines(lines + [line]) && LoadLines(lines + [line])[k] == ParseLine(line).value.value
    ensures !Sets(ParseLine(line), k) ==> (k in LoadLines(lines + [line]) <==> k in LoadLines(lines))
    ensures !Sets(ParseLine(line), k) && k in LoadLines(lines) ==>
      LoadLines(lines + [line])[k] == LoadLines(lines)[k]
  {
    ParseLinesAppend(lines, line);
  }

  /** A binding the file format can express: a valid key, a trimmed value, no line breaks. */
  predicate Expressible(b: Binding) {
    ValidKey(b.key) && '\n' !in b.key && IsTrimmed(b.value) && '\n' !in b.value
  }

  /** A line without a line break yields only expressible pairs. */
  lemma ParsedLineExpressible(line: string)
    requires '\n' !in line
    ensures ParseLine(line).Some? ==> Expressible(ParseLine(line).value)
  {
    ParseLineValid(line);
    ParseLineSplitsAtFirstEquals(line);
    if ParseLine(line).Some? {
      var t := Trim(line);
      var i :| FirstEquals(t, i) && ParseLine(line).value == Binding(Trim(t[..i]), Trim(t[i + 1..]));
      TrimKeepsContents(line, '\n');
      assert '\n' !in t[..i] && '\n' !in t[i + 1..] by {
        assert forall x :: x in t[..i] ==> x in t;
        assert forall x :: x in t[i + 1..] ==> x in t;
      }
      TrimKeepsContents(t[..i], '\n');
      TrimKeepsContents(t[i + 1..], '\n');
    }
  }

  /** Recording only expressible pairs gives a map of expressible pairs. */
  lemma {:induction false} AssignExpressible(ps: seq<Option<Binding>>)
    requires forall i :: 0 <= i < |ps| && ps[i].Some? ==> Expressible(ps[i].value)
    ensures forall k :: k in Assign(ps) ==> Expressible(Binding(k, Assign(ps)[k]))
  {
    if |ps| > 0 {
      AssignExpressible(ps[..|ps| - 1]);
    }
  }

  /** Every key the loader records from a file is valid and free of line
      breaks, and every value is trimmed and free of line breaks. */
  lemma LoadEnvShape(content: string)
    ensures forall k :: k in LoadEnv(content) ==> Expressible(Binding(k, LoadEnv(content)[k]))
  {
    var lines := SplitOn(content, '\n');
    forall i | 0 <= i < |lines| ensures ParseLines(lines)[i].Some? ==> Expressible(ParseLines(lines)[i].value) {
      assert lines[i] in lines;
      ParsedLineExpressible(lines[i]);
    }
    AssignExpressible(ParseLines(lines));
  }

  /** Trimming `k=v` for a valid key only removes trailing whitespace of `v`. */
  lemma TrimFormatted(k: string, v: string)
    requires ValidKey(k)
    ensures Trim(k + "=" + v) == k + "=" + TrimEnd(v)
  {
    FormattedIsTrimOf(k, v);
    TrimCharacterization(k + "=" + v, k + "=" + TrimEnd(v));
  }

  lemma FormattedIsTrimOf(k: string, v: string)
    requires ValidKey(k)
    ensures IsTrimOf(k + "=" + v, k + "=" + TrimEnd(v))
  {
    var line := k + "=" + v;
    var tv := TrimEnd(v);
    var t := k + "=" + tv;
    TrimEndSpec(v);
    assert TrimAt(line, t, 0, |t|) by {
      assert line[|t|..] == v[|tv|..];
      assert line[..0] == [] && line[0..|t|] == t;
    }
    assert IsTrimmed(t) by {
      assert t[0] == k[0];
      assert t[|t| - 1] == if tv == [] then '=' else tv[|tv| - 1];
    }
  }


  /** Only the first `=` splits a line: the rest of the line, `=` characters
      included, is the value (trimmed). `A=B=C` sets `A` to `B=C`. */
  lemma ParseFormattedLine(k: string, v: string)
    requires ValidKey(k)
    ensures ParseLine(k + "=" + v) == Some(Binding(k, Trim(v)))
  {
    var tv := TrimEnd(v);
    var t := k + "=" + tv;
    TrimEndSpec(v);
    TrimFormatted(k, v);
    assert t[..|k|] == k;
    IndexOfAt(t, '=', |k|);
    TrimmedIsFixed(k);
    assert t[|k| + 1..] == tv;
    assert v[..|tv|] == tv;
    TrimIgnoresTrailingSpace(v, |tv|);
  }

  /** The `.env` text of a binding: `KEY=VALUE`. */
  function FormatLine(b: Binding): string {
    b.key + "=" + b.value
  }

  function FormatLines(bs: seq<Binding>): (ls: seq<string>)
    ensures |ls| == |bs|
    ensures forall i :: 0 <= i < |bs| ==> ls[i] == FormatLine(bs[i])
  {
    seq(|bs|, i requires 0 <= i < |bs| => FormatLine(bs[i]))
  }

  /** A `.env` file listing the bindings one per line. */
  function FormatEnv(bs: seq<Binding>): string {
    JoinWith(FormatLines(bs), '\n')
  }

  /** Every binding of `bs` as a parsed line. */
  function AsParsed(bs: seq<Binding>): (ps: seq<Option<Binding>>)
    ensures |ps| == |bs|
  {
    seq(|bs|, i requires 0 <= i < |bs| => Some(bs[i]))
  }

  /** Writing expressible bindings as a file and loading it gives the map the
      bindings denote, later ones overwriting earlier ones; so every map of
      expressible pairs is a possible loader result. */
  lemma LoadFormatRoundTrip(bs: seq<Binding>)
    requires forall b :: b in bs ==> Expressible(b)
    ensures LoadEnv(FormatEnv(bs)) == Assign(AsParsed(bs))
  {
    var ls := FormatLines(bs);
    forall i | 0 <= i < |bs| ensures ParseLines(ls)[i] == AsParsed(bs)[i] && '\n' !in ls[i] {
      assert bs[i] in bs;
      ParseFormattedLine(bs[i].key, bs[i].value);
      TrimmedIsFixed(bs[i].value);
    }
    assert ParseLines(ls) == AsParsed(bs);
    if |bs| == 0 {
      assert SplitOn("", '\n') == [""];
      assert ParseLine("") == None;
      var ps: seq<Option<Binding>> := [None];
      assert ParseLines([""]) == ps && ps[..0] == [];
    } else {
      SplitJoinRoundTrip(ls, '\n');
    }
  }

  lemma AssignStep(ps: seq<Option<Binding>>, i: nat)
    requires i < |ps|
    ensures Assign(ps[..i + 1]) == Record(Assign(ps[..i]), ps[i])
  {
    assert ps[..i + 1][..i] == ps[..i];
  }

  /** `loadEnvFile(path)`: a missing file stops the launcher; otherwise every
      line of the text is processed in order into a fresh map. */
  method LoadEnvFile(file: Option<string>) returns (r: Result<Env, LoadError>)
    ensures file.None? <==> r == Err(EnvFileMissing)
    ensures file.Some? ==> r == Ok(LoadEnv(file.value))
  {
    if file.None? {
      return Err(EnvFileMissing);
    }
    var lines := SplitOn(file.value, '\n');
    ghost var ps := ParseLines(lines);
    var env: Env := map[];
    var i := 0;
    while i < |lines|
      invariant 0 <= i <= |lines|
      invariant env == Assign(ps[..i])
    {
      AssignStep(ps, i);
      env := Record(env, ParseLine(lines[i]));
      i := i + 1;
    }
    assert ps[..|lines|] == ps;
    return Ok(env);
  }

  /** Trailing whitespace, such as the `\r` a CRLF file leaves before each
      `\n`, makes no difference to a line. */
  lemma TrailingSpaceIgnored(line: string, w: string)
    requires AllSpace(w)
    ensures ParseLine(line + w) == ParseLine(line)
  {
    var s := line + w;
    assert s[..|line|] == line && s[|line|..] == w;
    TrimIgnoresTrailingSpace(s, |line|);
  }

  /** Indentation makes no difference to a line: an indented comment is still
      a comment. */
  lemma LeadingSpaceIgnored(w: string, line: string)
    requires AllSpace(w)
    ensures ParseLine(w + line) == ParseLine(line)
  {
    var s := w + line;
    assert s[..|w|] == w && s[|w|..] == line;
    TrimIgnoresLeadingSpace(s, |w|);
  }

  /** A line that trims to a comment sets nothing. */
  lemma CommentSetsNothing(c: string)
    requires |c| > 0 && c[0] == '#'
    ensures ParseLine(c) == None
  {
    TrimKeepsFirst(c);
  }

  /** Loading four lines records them one after another. */
  lemma LoadFourLines(a: string, b: string, c: string, d: string)
    ensures LoadLines([a, b, c, d])
         == Record(Record(Record(Record(map[], ParseLine(a)), ParseLine(b)), ParseLine(c)), ParseLine(d))
  {
    var ps := ParseLines([a, b, c, d]);
    assert ps == [ParseLine(a), ParseLine(b), ParseLine(c), ParseLine(d)];
    assert ps[..0] == [] && ps[..4] == ps;
    AssignStep(ps, 0);
    AssignStep(ps, 1);
    AssignStep(ps, 2);
    AssignStep(ps, 3);
  }

  /** A file holding an assignment, a comment, a blank line and a second
      assignment (whose value may hold `=`) loads as exactly the two
      assignments, the second winning if the keys coincide. */
  lemma LoadEnvScenario(k1: string, v1: string, comment: string, k2: string, v2: string)
    requires ValidKey(k1) && ValidKey(k2) && IsTrimmed(v1) && IsTrimmed(v2)
    requires |comment| > 0 && comment[0] == '#'
    requires '\n' !in k1 && '\n' !in v1 && '\n' !in comment && '\n' !in k2 && '\n' !in v2
    ensures LoadEnv(k1 + "=" + v1 + "\n" + comment + "\n\n" + k2 + "=" + v2) == map[k1 := v1][k2 := v2]
  {
    var l1, l4 := k1 + "=" + v1, k2 + "=" + v2;
    var lines := [l1, comment, "", l4];
    var content := k1 + "=" + v1 + "\n" + comment + "\n\n" + k2 + "=" + v2;
    assert JoinWith(lines, '\n') == content by {
      assert lines[1..] == [comment, "", l4] && lines[1..][1..] == ["", l4] && lines[1..][1..][1..] == [l4];
      assert JoinWith([l4], '\n') == l4;
      assert ["", l4][1..] == [l4];
      assert JoinWith(["", l4], '\n') == "" + ['\n'] + l4;
      assert [comment, "", l4][1..] == ["", l4];
      assert JoinWith([comment, "", l4], '\n') == comment + ['\n'] + ("" + ['\n'] + l4);
    }
    SplitJoinRoundTrip(lines, '\n');
    LoadFourLines(l1, comment, "", l4);
    ParseFormattedLine(k1, v1);
    TrimmedIsFixed(v1);
    ParseFormattedLine(k2, v2);
    TrimmedIsFixed(v2);
    CommentSetsNothing(comment);
    TrimmedIsFixed("");
  }
}

=== FILE: env_overlay.dfy ===
/** The child environment the launchers build with object spread:
    `{ ...process.env, ...envVars, NODE_ENV: 'development' }` in the
    development launcher and `{ ...process.env, ...envVars }` in the schema push. */
module EnvOverlay {
  import opened EnvFile

  /** `{ ...base, ...top }`: every key of either map, `top` winning on a clash. */
  function Overlay(base: Env, top: Env): (r: Env)
    ensures r.Keys == base.Keys + top.Keys
    ensures forall k :: k in top ==> r[k] == top[k]
    ensures forall k :: k in base && k !in top ==> r[k] == base[k]
  {
    base + top
  }

  const NodeEnv: string := "NODE_ENV"
  const Development: string := "development"

  /** The development server's environment: inherited, then the file, then the forced mode. */
  function DevChildEnv(inherited: Env, file: Env): (r: Env)
    ensures NodeEnv in r && r[NodeEnv] == Development
    ensures forall k :: k != NodeEnv ==> (k in r <==> k in inherited || k in file)
    ensures forall k :: k != NodeEnv && k in file ==> r[k] == file[k]
    ensures forall k :: k != NodeEnv && k in inherited && k !in file ==> r[k] == inherited[k]
  {
    Overlay(Overlay(inherited, file), map[NodeEnv := Development])
  }

  /** The schema push's environment: inherited, then the file, nothing forced. */
  function DbPushChildEnv(inherited: Env, file: Env): (r: Env)
    ensures r.Keys == inherited.Keys + file.Keys
    ensures forall k :: k in file ==> r[k] == file[k]
    ensures forall k :: k in inherited && k !in file ==> r[k] == inherited[k]
  {
    Overlay(inherited, file)
  }

  /** Overlaying the same map twice is overlaying it once. */
  lemma OverlayIdempotent(base: Env, top: Env)
    ensures Overlay(Overlay(base, top), top) == Overlay(base, top)
  {
  }

  /** Layers compose: overlaying two layers one after another is overlaying their union. */
  lemma OverlayAssociative(a: Env, b: Env, c: Env)
    ensures Overlay(Overlay(a, b), c) == Overlay(a, Overlay(b, c))
  {
  }

  /** The file cannot change the development mode: dropping its `NODE_ENV`
      leaves the child environment unchanged. */
  lemma FileCannotOverrideDevMode(inherited: Env, file: Env)
    ensures DevChildEnv(inherited, file) == DevChildEnv(inherited, file - {NodeEnv})
  {
    var r1 := DevChildEnv(inherited, file);
    var r2 := DevChildEnv(inherited, file - {NodeEnv});
    assert r1.Keys == r2.Keys;
    forall k | k in r1 ensures r1[k] == r2[k] {
      if k != NodeEnv {
        assert k in file <==> k in file - {NodeEnv};
      }
    }
  }

  /** Nor can the inherited environment. */
  lemma InheritedCannotOverrideDevMode(inherited: Env, file: Env)
    ensures DevChildEnv(inherited, file) == DevChildEnv(inherited - {NodeEnv}, file)
  {
    var r1 := DevChildEnv(inherited, file);
    var r2 := DevChildEnv(inherited - {NodeEnv}, file);
    assert r1.Keys == r2.Keys;
    forall k | k in r1 ensures r1[k] == r2[k] {
      if k != NodeEnv {
        assert k in inherited <==> k in inherited - {NodeEnv};
      }
    }
  }

  /** The two launchers agree on every key except the forced one. */
  lemma LaunchersAgreeOffNodeEnv(inherited: Env, file: Env)
    ensures DevChildEnv(inherited, file) - {NodeEnv} == DbPushChildEnv(inherited, file) - {NodeEnv}
  {
  }
}

=== FILE: file_walk.dfy ===
/** `getAllFiles` of `push-to-github.js`: a depth-first walk of the working
    tree that collects file paths into an accumulator, skipping hidden entries
    and four build/tooling names. The directory tree is given as data; the
    order of a listing is the order `readdirSync` returned it in. */
module FileWalk {

  /** An entry of a directory listing: a file, or a directory with its own listing. */
  datatype Entry = File(name: string) | Dir(name: string, entries: seq<Entry>)

  const SkippedNames: set<string> := {"node_modules", "dist", "build", "scripts"}

  /** Entries the walk neither yields nor descends into: hidden ones and the
      four named ones. */
  predicate IsSkipped(name: string) {
    (|name| > 0 && name[0] == '.') || name in SkippedNames
  }

  /** `path.join(dir, name)` for a listing name: joining onto the current
      directory `.` normalises to the bare name. */
  function JoinPath(dir: string, name: string): string {
    if dir == "." then name else dir + "/" + name
  }

  /** `getAllFiles(dir, acc)` over the listing `entries` of `dir`: the
      `forEach` callback runs on each entry in turn, threading the accumulator. */
  function GetAllFiles(dir: string, entries: seq<Entry>, acc: seq<string>): seq<string>
    decreases entries
  {
    if |entries| == 0 then acc
    else GetAllFiles(dir, entries[1..], Visit(dir, entries[0], acc))
  }

  /** The callback for one entry: a skipped name changes nothing, a file is
      appended, a directory is walked into the same accumulator. */
  function Visit(dir: string, e: Entry, acc: seq<string>): seq<string>
    decreases e
  {
    if IsSkipped(e.name) then acc
    else match e
      case File(n) => acc + [JoinPath(dir, n)]
      case Dir(n, children) => GetAllFiles(JoinPath(dir, n), children, acc)
  }

  // An independent description of the same walk: list the route (sequence of
  // names) to every file, in depth-first listing order, keep the routes none
  // of whose names is skipped, and render each as a path.

  /** `[n] + r` for every route `r`. */
  function Prefixed(n: string, routes: seq<seq<string>>): (rs: seq<seq<string>>)
    ensures |rs| == |routes|
    ensures forall i :: 0 <= i < |rs| ==> rs[i] == [n] + routes[i]
  {
    seq(|routes|, i requires 0 <= i < |routes| => [n] + routes[i])
  }

  /** The routes to every file of the listing, skipped or not, depth first. */
  function Routes(entries: seq<Entry>): seq<seq<string>>
    decreases entries
  {
    if |entries| == 0 then [] else RoutesOf(entries[0]) + Routes(entries[1..])
  }

  function RoutesOf(e: Entry): seq<seq<string>>
    decreases e
  {
    match e
    case File(n) => [[n]]
    case Dir(n, children) => Prefixed(n, Routes(children))
  }

  /** No name along the route is skipped. */
  predicate Allowed(route: seq<string>) {
    forall i :: 0 <= i < |route| ==> !IsSkipped(route[i])
  }

  function KeepAllowed(routes: seq<seq<string>>): seq<seq<string>> {
    if |routes| == 0 then []
    else (if Allowed(routes[0]) then [routes[0]] else []) + KeepAllowed(routes[1..])
  }

  /** The path of a route below `dir`. */
  function PathOf(dir: string, route: seq<string>): string
    decreases |route|
  {
    if |route| == 0 then dir else PathOf(JoinPath(dir, route[0]), route[1..])
  }

  function Paths(dir: string, routes: seq<seq<string>>): (ps: seq<string>)
    ensures |ps| == |routes|
    ensures forall i :: 0 <= i < |ps| ==> ps[i] == PathOf(dir, routes[i])
  {
    seq(|routes|, i requires 0 <= i < |routes| => PathOf(dir, routes[i]))
  }

  /** The paths of the allowed file routes, in depth-first listing order. */
  function Reachable(dir: string, entries: seq<Entry>): seq<string> {
    Paths(dir, KeepAllowed(Routes(entries)))
  }

  lemma {:induction false} KeepAllowedAppend(a: seq<seq<string>>, b: seq<seq<string>>)
    ensures KeepAllowed(a + b) == KeepAllowed(a) + KeepAllowed(b)
  {
    if |a| > 0 {
      assert (a + b)[1..] == a[1..] + b;
      KeepAllowedAppend(a[1..], b);
    } else {
      assert a + b == b;
    }
  }

  lemma AllowedPrefixed(n: string, r: seq<string>)
    ensures Allowed([n] + r) <==> !IsSkipped(n) && Allowed(r)
  {
    assert forall i :: 0 <= i < |r| ==> ([n] + r)[i + 1] == r[i];
    assert ([n] + r)[0] == n;
  }

  /** Below a skipped name nothing is allowed; below any other name, exactly
      the allowed routes are. */
  lemma {:induction false} KeepAllowedPrefixed(n: string, routes: seq<seq<string>>)
    ensures KeepAllowed(Prefixed(n, routes)) == if IsSkipped(n) then [] else Prefixed(n, KeepAllowed(routes))
  {
    if |routes| > 0 {
      assert Prefixed(n, routes)[1..] == Prefixed(n, routes[1..]);
      KeepAllowedPrefixed(n, routes[1..]);
      AllowedPrefixed(n, routes[0]);
      if !IsSkipped(n) {
        assert Prefixed(n, KeepAllowed(routes)) ==
          (if Allowed(routes[0]) then [[n] + routes[0]] else []) + Prefixed(n, KeepAllowed(routes[1..]));
      }
    }
  }

  lemma PathsAppend(dir: string, a: seq<seq<string>>, b: seq<seq<string>>)
    ensures Paths(dir, a + b) == Paths(dir, a) + Paths(dir, b)
  {
  }

  lemma PathsPrefixed(dir: string, n: string, routes: seq<seq<string>>)
    ensures Paths(dir, Prefixed(n, routes)) == Paths(JoinPath(dir, n), routes)
  {
    forall i | 0 <= i < |routes|
      ensures PathOf(dir, [n] + routes[i]) == PathOf(JoinPath(dir, n), routes[i])
    {
      assert ([n] + routes[i])[1..] == routes[i];
    }
  }

  /** The walk appends exactly the allowed files' paths, in depth-first
      listing order, after whatever the accumulator already held. */
  lemma {:induction false} GetAllFilesSpec(dir: string, entries: seq<Entry>, acc: seq<string>)
    ensures GetAllFiles(dir, entries, acc) == acc + Reachable(dir, entries)
    decreases entries
  {
    if |entries| > 0 {
      var first := RoutesOf(entries[0]);
      var rest := Routes(entries[1..]);
      KeepAllowedAppend(first, rest);
      PathsAppend(dir, KeepAllowed(first), KeepAllowed(rest));
      VisitSpec(dir, entries[0], acc);
      GetAllFilesSpec(dir, entries[1..], Visit(dir, entries[0], acc));
    }
  }

  lemma {:induction false} VisitSpec(dir: string, e: Entry, acc: seq<string>)
    ensures Visit(dir, e, acc) == acc + Paths(dir, KeepAllowed(RoutesOf(e)))
    decreases e
  {
    match e
    case File(n) =>
      AllowedPrefixed(n, []);
      assert [n] + [] == [n];
      assert PathOf(dir, [n]) == JoinPath(dir, n);
    case Dir(n, children) =>
      KeepAllowedPrefixed(n, Routes(children));
      if !IsSkipped(n) {
        GetAllFilesSpec(JoinPath(dir, n), children, acc);
        PathsPrefixed(dir, n, KeepAllowed(Routes(children)));
      }
  }

  /** The walk as the script starts it: from `.`, with an empty accumulator. */
  function WalkFromRoot(entries: seq<Entry>): seq<string> {
    GetAllFiles(".", entries, [])
  }

  /** What the walk finds does not depend on what the accumulator held. */
  lemma AccumulatorIndependent(dir: string, entries: seq<Entry>, acc: seq<string>)
    ensures GetAllFiles(dir, entries, acc) == acc + GetAllFiles(dir, entries, [])
  {
    GetAllFilesSpec(dir, entries, acc);
    GetAllFilesSpec(dir, entries, []);
    assert [] + Reachable(dir, entries) == Reachable(dir, entries);
  }

  lemma {:induction false} KeepAllowedMembers(routes: seq<seq<string>>)
    ensures forall r :: r in KeepAllowed(routes) <==> r in routes && Allowed(r)
  {
    if |routes| > 0 {
      KeepAllowedMembers(routes[1..]);
      assert routes == [routes[0]] + routes[1..];
    }
  }

  lemma PathsMembers(dir: string, routes: seq<seq<string>>, p: string)
    ensures p in Paths(dir, routes) <==> exists r :: r in routes && p == PathOf(dir, r)
  {
    var ps := Paths(dir, routes);
    if p in ps {
      var i :| 0 <= i < |ps| && ps[i] == p;
      assert routes[i] in routes;
    }
    forall r | r in routes && p == PathOf(dir, r) ensures p in ps {
      var i :| 0 <= i < |routes| && routes[i] == r;
      assert ps[i] == p;
    }
  }

  /** A path is yielded exactly when some file's route has no skipped name
      and renders to it. */
  lemma WalkMembership(dir: string, entries: seq<Entry>, p: string)
    ensures p in GetAllFiles(dir, entries, []) <==>
      exists r :: r in Routes(entries) && Allowed(r) && p == PathOf(dir, r)
  {
    var kept := KeepAllowed(Routes(entries));
    assert GetAllFiles(dir, entries, []) == Paths(dir, kept) by {
      GetAllFilesSpec(dir, entries, []);
      assert [] + Paths(dir, kept) == Paths(dir, kept);
    }
    KeepAllowedMembers(Routes(entries));
    PathsMembers(dir, kept, p);
  }

  /** Every file has a route of at least one name. */
  lemma {:induction false} RoutesNonEmpty(entries: seq<Entry>)
    ensures forall r :: r in Routes(entries) ==> |r| > 0
    decreases entries
  {
    if |entries| > 0 {
      RoutesOfNonEmpty(entries[0]);
      RoutesNonEmpty(entries[1..]);
    }
  }

  lemma {:induction false} RoutesOfNonEmpty(e: Entry)
    ensures forall r :: r in RoutesOf(e) ==> |r| > 0
    decreases e
  {
    match e
    case File(n) =>
    case Dir(n, children) =>
      forall r | r in Prefixed(n, Routes(children)) ensures |r| > 0 {
        var i :| 0 <= i < |Routes(children)| && Prefixed(n, Routes(children))[i] == r;
      }
  }

  /** The path does not begin with a dot (so neither `.` nor `./...`). */
  predicate NoDotStart(p: string) {
    |p| == 0 || p[0] != '.'
  }

  lemma {:induction false} PathOfNoDot(d: string, route: seq<string>)
    requires NoDotStart(d)
    ensures NoDotStart(PathOf(d, route))
    decreases |route|
  {
    if |route| > 0 {
      var next := d + "/" + route[0];
      assert NoDotStart(next) by {
        if |d| > 0 { assert next[0] == d[0]; } else { assert next[0] == '/'; }
      }
      PathOfNoDot(next, route[1..]);
    }
  }

  /** Walking from `.` never yields a path that begins with a dot: joining
      onto `.` drops it, and the first name of a yielded route is not hidden. */
  lemma WalkNeverDotted(entries: seq<Entry>)
    ensures forall p :: p in WalkFromRoot(entries) ==> NoDotStart(p)
  {
    RoutesNonEmpty(entries);
    forall p | p in WalkFromRoot(entries) ensures NoDotStart(p) {
      WalkMembership(".", entries, p);
      var r :| r in Routes(entries) && Allowed(r) && p == PathOf(".", r);
      assert !IsSkipped(r[0]);
      PathOfNoDot(r[0], r[1..]);
    }
  }
}

=== FILE: git_tree.dfy ===
/** The tree sent to the Git data API by `push-to-github.js`: one blob entry
    per collected file, its path with a leading `./` removed and its content
    read as UTF-8 text. Reading a file is a parameter: `None` stands for a
    read that throws. */
module GitTree {
  import opened Wrappers
  import FileWalk

  /** A regular, non-executable file. */
  const BlobMode: string := "100644"
  const BlobType: string := "blob"

  datatype TreeEntry = TreeEntry(path: string, mode: string, kind: string, content: string)

  /** The read that failed, naming its path. */
  datatype TreeError = Unreadable(path: string)

  predicate StartsDotSlash(p: string) {
    |p| >= 2 && p[0] == '.' && p[1] == '/'
  }

  /** `p.replace(/^\.\//, '')`: the pattern is anchored and not global, so at
      most one leading `./` goes. */
  function StripDotSlash(p: string): (r: string)
    ensures StartsDotSlash(p) ==> "./" + r == p
    ensures !StartsDotSlash(p) ==> r == p
    ensures |r| <= |p|
  {
    if StartsDotSlash(p) then p[2..] else p
  }

  /** Exactly one `./` is taken off, so a doubled prefix leaves one behind. */
  lemma StripRemovesOne(q: string)
    ensures StripDotSlash("./" + q) == q
    ensures StripDotSlash("././" + q) == "./" + q
  {
    assert ("././" + q)[2..] == "./" + q;
  }

  /** A path that does not begin with a dot is left alone. */
  lemma StripKeepsUndotted(p: string)
    requires FileWalk.NoDotStart(p)
    ensures StripDotSlash(p) == p
  {
  }

  /** On the walk from `.` the strip never changes a path. */
  lemma StripIsIdentityOnWalk(entries: seq<FileWalk.Entry>)
    ensures forall p :: p in FileWalk.WalkFromRoot(entries) ==> StripDotSlash(p) == p
  {
    FileWalk.WalkNeverDotted(entries);
    forall p | p in FileWalk.WalkFromRoot(entries)
      ensures StripDotSlash(p) == p
    {
      StripKeepsUndotted(p);
    }
  }

  function BlobEntry(file: string, content: string): TreeEntry {
    TreeEntry(StripDotSlash(file), BlobMode, BlobType, content)
  }

  /** The first file the read fails on, if any. */
  function FirstUnreadable(files: seq<string>, read: string -> Option<string>): (r: Option<nat>)
    ensures r.None? <==> forall i :: 0 <= i < |files| ==> read(files[i]).Some?
    ensures r.Some? ==> r.value < |files| && read(files[r.value]).None?
    ensures r.Some? ==> forall i :: 0 <= i < r.value ==> read(files[i]).Some?
  {
    if |files| == 0 then None
    else if read(files[0]).None? then Some(0)
    else match FirstUnreadable(files[1..], read)
      case None => None
      case Some(k) => Some(k + 1)
  }

  /** The tree of lines 115-126 as a value: the blob entries of `files` in
      order, or the error of the first read that throws. */
  function TreeOf(files: seq<string>, read: string -> Option<string>): (r: Result<seq<TreeEntry>, TreeError>)
    ensures r.Ok? <==> FirstUnreadable(files, read).None?
    ensures r.Ok? ==> |r.value| == |files|
    ensures r.Ok? ==> forall i :: 0 <= i < |files| ==> r.value[i] == BlobEntry(files[i], read(files[i]).value)
    ensures r.Err? ==> r.error == Unreadable(files[FirstUnreadable(files, read).value])
  {
    if |files| == 0 then Ok([])
    else match read(files[0])
      case None => Err(Unreadable(files[0]))
      case Some(content) =>
        match TreeOf(files[1..], read)
        case Err(e) => Err(e)
        case Ok(rest) => Ok([BlobEntry(files[0], content)] + rest)
  }

  /** The loop at lines 115-126: read each file in order and push its blob
      entry; the first read that throws ends the whole step. */
  method BuildTree(files: seq<string>, read: string -> Option<string>)
    returns (r: Result<seq<TreeEntry>, TreeError>)
    ensures r.Ok? <==> forall i :: 0 <= i < |files| ==> read(files[i]).Some?
    ensures r.Ok? ==> |r.value| == |files|
    ensures r.Ok? ==> forall i :: 0 <= i < |files| ==> r.value[i] == BlobEntry(files[i], read(files[i]).value)
    ensures r.Err? ==> FirstUnreadable(files, read).Some?
    ensures r.Err? ==> r.error == Unreadable(files[FirstUnreadable(files, read).value])
    ensures r == TreeOf(files, read)
  {
    var tree: seq<TreeEntry> := [];
    var i := 0;
    while i < |files|
      invariant 0 <= i <= |files|
      invariant |tree| == i
      invariant forall j :: 0 <= j < i ==> read(files[j]).Some?
      invariant forall j :: 0 <= j < i ==> tree[j] == BlobEntry(files[j], read(files[j]).value)
    {
      var content := read(files[i]);
      if content.None? {
        ghost var k := FirstUnreadable(files, read);
        assert k == Some(i);
        assert TreeOf(files, read).Err?;
        return Err(Unreadable(files[i]));
      }
      tree := tree + [BlobEntry(files[i], content.value)];
      i := i + 1;
    }
    assert tree == TreeOf(files, read).value;
    return Ok(tree);
  }

  /** Tree paths are exactly the walk's paths, in the walk's order. */
  lemma TreePathsAreWalkPaths(entries: seq<FileWalk.Entry>, contents: seq<string>)
    requires |contents| == |FileWalk.WalkFromRoot(entries)|
    ensures var files := FileWalk.WalkFromRoot(entries);
      forall i :: 0 <= i < |files| ==> BlobEntry(files[i], contents[i]).path == files[i]
  {
    StripIsIdentityOnWalk(entries);
  }
}

=== FILE: github_auth.dfy ===
/** `getAccessToken` of `push-to-github.js`: a module-level cached connection,
    the `X_REPLIT_TOKEN` header built from the environment, and the choice of
    access token from the connector's answer. The clock (`Date.now()`) and the
    connector's answer (`data.items?.[0]`) are parameters; the cache is passed
    in and handed back. */
module GitHubAuth {
  import opened Wrappers
  import opened JsText
  import opened EnvFile

  /** `process.env[k]`: absent keys read as `undefined`. */
  function Lookup(env: Env, k: string): (v: Option<string>)
    ensures v.Some? <==> k in env
    ensures v.Some? ==> v.value == env[k]
  {
    if k in env then Some(env[k]) else None
  }

  const ReplIdentity: string := "REPL_IDENTITY"
  const WebReplRenewal: string := "WEB_REPL_RENEWAL"

  /** The connector's `settings` object. `expiresAt` is `expires_at` as
      milliseconds since the epoch; `None` stands for a missing, empty or
      unparsable value, all of which fail the freshness test. `oauthToken`
      is `oauth.credentials.access_token`, `None` when any link is missing. */
  datatype Settings = Settings(expiresAt: Option<int>, accessToken: Option<string>, oauthToken: Option<string>)

  /** One item of the connector's answer; its `settings` may be missing. */
  datatype Connection = Connection(settings: Option<Settings>)

  datatype AuthError =
    | MissingReplToken   // 'X_REPLIT_TOKEN not found for repl/depl'
    | NotConnected       // 'GitHub not connected'
    | TypeError          // a property read on `undefined`

  /** What a call resolves or rejects with: a resolved token may be
      `undefined` (`None`) or empty. */
  datatype Outcome = Resolved(token: Option<string>) | Rejected(error: AuthError)

  /** The outcome, the `X_REPLIT_TOKEN` header of the request made (`None`
      when no request was made), and the cache left behind. */
  datatype Call = Call(outcome: Outcome, request: Option<string>, cache: Option<Connection>)

  // ---------------------------------------------------------------- header

  /** Lines 13-21: `REPL_IDENTITY` wins when set and non-empty, then
      `WEB_REPL_RENEWAL`; neither is an error. */
  function TokenHeader(env: Env): (r: Result<string, AuthError>)
    ensures r.Ok? <==> Truthy(Lookup(env, ReplIdentity)) || Truthy(Lookup(env, WebReplRenewal))
    ensures r.Err? ==> r.error == MissingReplToken
    ensures Truthy(Lookup(env, ReplIdentity)) ==> r == Ok("repl " + env[ReplIdentity])
    ensures !Truthy(Lookup(env, ReplIdentity)) && Truthy(Lookup(env, WebReplRenewal)) ==>
      r == Ok("depl " + env[WebReplRenewal])
  {
    var identity := Lookup(env, ReplIdentity);
    var renewal := Lookup(env, WebReplRenewal);
    if Truthy(identity) then Ok("repl " + identity.value)
    else if Truthy(renewal) then Ok("depl " + renewal.value)
    else Err(MissingReplToken)
  }

  /** Which variable a header came from, and its value: the inverse of
      `TokenHeader` on its successful results. */
  function HeaderSource(header: string): Option<(string, string)> {
    if |header| >= 5 && header[..5] == "repl " then Some((ReplIdentity, header[5..]))
    else if |header| >= 5 && header[..5] == "depl " then Some((WebReplRenewal, header[5..]))
    else None
  }

  lemma HeaderRoundTrip(env: Env)
    requires TokenHeader(env).Ok?
    ensures var src := HeaderSource(TokenHeader(env).value);
      src.Some? && src.value.0 in env && env[src.value.0] == src.value.1 && src.value.1 != ""
  {
    var h := TokenHeader(env).value;
    if Truthy(Lookup(env, ReplIdentity)) {
      assert h[..5] == "repl " && h[5..] == env[ReplIdentity];
    } else {
      assert h[..5] == "depl " && h[5..] == env[WebReplRenewal];
    }
  }

  /** With `REPL_IDENTITY` set, `WEB_REPL_RENEWAL` has no say. */
  lemma IdentityTakesPrecedence(env: Env, renewal: string)
    requires Truthy(Lookup(env, ReplIdentity))
    ensures TokenHeader(env[WebReplRenewal := renewal]) == TokenHeader(env)
    ensures TokenHeader(env - {WebReplRenewal}) == TokenHeader(env)
  {
    assert Lookup(env[WebReplRenewal := renewal], ReplIdentity) == Lookup(env, ReplIdentity);
    assert Lookup(env - {WebReplRenewal}, ReplIdentity) == Lookup(env, ReplIdentity);
  }

  /** Variables other than the two never change the header. */
  lemma HeaderIgnoresOtherVariables(env: Env, k: string, v: string)
    requires k != ReplIdentity && k != WebReplRenewal
    ensures TokenHeader(env[k := v]) == TokenHeader(env)
  {
    assert Lookup(env[k := v], ReplIdentity) == Lookup(env, ReplIdentity);
    assert Lookup(env[k := v], WebReplRenewal) == Lookup(env, WebReplRenewal);
  }

  // ------------------------------------------------------------- freshness

  /** The cache test of line 8 on a connection that has settings:
      `expires_at` present and later than now. */
  predicate Fresh(s: Settings, now: int) {
    s.expiresAt.Some? && s.expiresAt.value > now
  }

  // ------------------------------------------------------------ token pick

  /** The token line 33 picks from a connection that has settings:
      `access_token` when truthy, else the OAuth credential's token. */
  function PickToken(s: Settings): (t: Option<string>)
    ensures Truthy(t) <==> Truthy(s.accessToken) || Truthy(s.oauthToken)
    ensures Truthy(s.accessToken) ==> t == s.accessToken
    ensures !Truthy(s.accessToken) ==> t == s.oauthToken
  {
    if Truthy(s.accessToken) then s.accessToken else s.oauthToken
  }

  /** Lines 33-38 on the fetched item as written: the left operand of `||`
      guards with `?.`, the right one reads `connectionSettings.settings`
      without it. */
  function ChooseAsWritten(fetched: Option<Connection>): Outcome {
    match fetched
    case None => Rejected(TypeError)
    case Some(c) =>
      var t := if c.settings.None? then None else PickToken(c.settings.value);
      if Truthy(t) then Resolved(t) else Rejected(NotConnected)
  }

  /** Lines 33-38 with `?.` on both operands: a missing item is reported as
      not connected. */
  function Choose(fetched: Option<Connection>): (r: Outcome)
    ensures r.Resolved? <==>
      (fetched.Some? && fetched.value.settings.Some? && Truthy(PickToken(fetched.value.settings.value)))
    ensures r.Rejected? ==> r.error == NotConnected
    ensures r.Resolved? ==> Truthy(r.token)
    ensures r.Resolved? ==> r.token == PickToken(fetched.value.settings.value)
  {
    match fetched
    case None => Rejected(NotConnected)
    case Some(c) =>
      var t := if c.settings.None? then None else PickToken(c.settings.value);
      if Truthy(t) then Resolved(t) else Rejected(NotConnected)
  }

  /** The two differ only on a missing item. */
  lemma ChooseAgreesOnItems(fetched: Option<Connection>)
    ensures fetched.Some? ==> ChooseAsWritten(fetched) == Choose(fetched)
    ensures fetched.None? ==> ChooseAsWritten(fetched) == Rejected(TypeError) && Choose(fetched) == Rejected(NotConnected)
  {
  }

  // ------------------------------------------------------------ whole call

  /** The fetch path, lines 12-38: build the header, store the item the
      connector answered with, then choose a token. */
  function FetchPath(env: Env, fetched: Option<Connection>, cache: Option<Connection>,
                     choose: Option<Connection> -> Outcome): Call {
    match TokenHeader(env)
    case Err(e) => Call(Rejected(e), None, cache)
    case Ok(h) => Call(choose(fetched), Some(h), fetched)
  }

  /** `getAccessToken` as written. */
  function GetAccessTokenAsWritten(cache: Option<Connection>, env: Env, now: int, fetched: Option<Connection>): (r: Call)
    ensures CacheHit(cache, now) ==>
      r.request.None? && r.outcome == Resolved(cache.value.settings.value.accessToken) && r.cache == cache
    ensures cache == Some(Connection(None)) ==> r.outcome == Rejected(TypeError) && r.request.None?
    ensures !CacheHit(cache, now) && cache != Some(Connection(None)) ==>
      (r.request.Some? <==> TokenHeader(env).Ok?)
    ensures r.request.Some? ==> r.cache == fetched
    ensures r.request.None? ==> r.cache == cache
    ensures r.request.Some? && fetched.None? ==> r.outcome == Rejected(TypeError)
    ensures r.request.Some? && fetched.Some? ==> r.outcome == Choose(fetched)
    ensures r.outcome == Rejected(MissingReplToken) <==>
      !CacheHit(cache, now) && cache != Some(Connection(None)) && TokenHeader(env).Err?
  {
    match cache
    case Some(Connection(None)) => Call(Rejected(TypeError), None, cache)
    case Some(Connection(Some(s))) =>
      if Fresh(s, now) then Call(Resolved(s.accessToken), None, cache)
      else FetchPath(env, fetched, cache, ChooseAsWritten)
    case None => FetchPath(env, fetched, cache, ChooseAsWritten)
  }

  /** `getAccessToken` as evidently intended: `?.` wherever a link may be
      missing, and a cache hit answers with the token the fetch chose. */
  function GetAccessToken(cache: Option<Connection>, env: Env, now: int, fetched: Option<Connection>): (r: Call)
    ensures r.outcome.Resolved? ==> Truthy(r.outcome.token)
    ensures r.outcome != Rejected(TypeError)
    ensures r.request.Some? <==> !CacheHit(cache, now) && TokenHeader(env).Ok?
    ensures r.outcome == Rejected(MissingReplToken) <==> !CacheHit(cache, now) && TokenHeader(env).Err?
    ensures r.request.Some? ==> r.request == Some(TokenHeader(env).value) && r.cache == fetched
    ensures r.request.None? ==> r.cache == cache
    ensures CacheHit(cache, now) ==> r.outcome == Choose(cache)
    ensures r.request.Some? ==> r.outcome == Choose(fetched)
  {
    if CacheHit(cache, now) then Call(Choose(cache), None, cache)
    else FetchPath(env, fetched, cache, Choose)
  }

  /** Line 8 with `?.`: the cache holds a connection whose settings expire later. */
  predicate CacheHit(cache: Option<Connection>, now: int) {
    cache.Some? && cache.value.settings.Some? && Fresh(cache.value.settings.value, now)
  }

  /** Line 8 read from the other side: once the clock reaches `expires_at`
      (or when nothing is cached, or the cached item has no `expires_at`),
      every later call with a header available asks the connector again,
      as written and as intended. */
  lemma ExpiredCallRequests(cache: Option<Connection>, env: Env, now: int, later: int, fetched: Option<Connection>)
    requires cache.None? ||
      (cache.value.settings.Some? &&
       (cache.value.settings.value.expiresAt.None? || cache.value.settings.value.expiresAt.value <= now))
    requires now <= later
    requires TokenHeader(env).Ok?
    ensures GetAccessTokenAsWritten(cache, env, later, fetched).request == Some(TokenHeader(env).value)
    ensures GetAccessToken(cache, env, later, fetched).request == Some(TokenHeader(env).value)
    ensures GetAccessTokenAsWritten(cache, env, later, fetched).cache == fetched
  {
  }

  /** A repeated call before expiry answers as the first one did, and asks
      the connector nothing. */
  lemma CacheIsTransparent(cache: Option<Connection>, env: Env, now: int, fetched: Option<Connection>,
                           env2: Env, now2: int, fetched2: Option<Connection>)
    requires GetAccessToken(cache, env, now, fetched).outcome.Resolved?
    requires CacheHit(GetAccessToken(cache, env, now, fetched).cache, now2)
    ensures var first := GetAccessToken(cache, env, now, fetched);
      var second := GetAccessToken(first.cache, env2, now2, fetched2);
      second.outcome == first.outcome && second.request.None?
  {
  }

  /** Whenever a request is made, its token is the header of lines 13-17. */
  lemma RequestCarriesHeader(cache: Option<Connection>, env: Env, now: int, fetched: Option<Connection>)
    ensures GetAccessTokenAsWritten(cache, env, now, fetched).request.Some? ==>
      GetAccessTokenAsWritten(cache, env, now, fetched).request == Some(TokenHeader(env).value)
  {
  }

  /** Away from the three defects the written and intended calls agree. */
  lemma AsWrittenAgreesOnFetch(cache: Option<Connection>, env: Env, now: int, fetched: Option<Connection>)
    requires !CacheHit(cache, now)
    requires cache.Some? ==> cache.value.settings.Some?
    requires fetched.Some?
    ensures GetAccessTokenAsWritten(cache, env, now, fetched) == GetAccessToken(cache, env, now, fetched)
  {
  }

  // ---------------------------------------------------------------- defects

  const WithIdentity: Env := map[ReplIdentity := "abc"]
  const OAuthOnly: Connection := Connection(Some(Settings(Some(2000), None, Some("gho_x"))))

  /** Line 33: the connector answers with no item; the right operand of `||`
      reads `settings` of `undefined`, so the call rejects with a TypeError
      rather than 'GitHub not connected'. */
  lemma NoItemIsTypeError()
    ensures GetAccessTokenAsWritten(None, WithIdentity, 0, None).outcome == Rejected(TypeError)
    ensures GetAccessToken(None, WithIdentity, 0, None).outcome == Rejected(NotConnected)
  {
  }

  /** Line 9: an OAuth-only connection resolves to its OAuth token on the
      fetch, then to `undefined` on the next call before expiry. */
  lemma CacheDropsOAuthToken()
    ensures GetAccessTokenAsWritten(None, WithIdentity, 0, Some(OAuthOnly)).outcome == Resolved(Some("gho_x"))
    ensures GetAccessTokenAsWritten(Some(OAuthOnly), WithIdentity, 1000, None).outcome == Resolved(None)
    ensures GetAccessToken(Some(OAuthOnly), WithIdentity, 1000, None).outcome == Resolved(Some("gho_x"))
  {
  }

  /** Line 8: an item without `settings` is stored even though the call
      rejects; the next call then fails reading `settings.expires_at` instead
      of asking the connector again. */
  lemma StoredItemWithoutSettings()
    ensures GetAccessTokenAsWritten(None, WithIdentity, 0, Some(Connection(None))).outcome == Rejected(NotConnected)
    ensures GetAccessTokenAsWritten(None, WithIdentity, 0, Some(Connection(None))).cache == Some(Connection(None))
    ensures GetAccessTokenAsWritten(Some(Connection(None)), WithIdentity, 1, Some(OAuthOnly)).outcome == Rejected(TypeError)
    ensures GetAccessToken(Some(Connection(None)), WithIdentity, 1, Some(OAuthOnly)).outcome == Resolved(Some("gho_x"))
  {
  }
}

=== FILE: js_text.dfy ===
/** The JavaScript string primitives the scripts rely on: `trim`, `split` and
    `join` on a single character, and string truthiness. `IndexOf`, a
    first-occurrence search, describes where `split` cuts. */
module JsText {
  import opened Wrappers

  /** The code points `String.prototype.trim` removes: the ECMAScript
      WhiteSpace set (including every space separator of category Zs and the
      byte-order mark) and the LineTerminator set. */
  predicate IsSpace(c: char) {
    || c == '\t' || c == '\n' || c == '\U{000B}' || c == '\U{000C}' || c == '\r'
    || c == ' ' || c == '\U{00A0}' || c == '\U{1680}'
    || ('\U{2000}' <= c <= '\U{200A}')
    || c == '\U{2028}' || c == '\U{2029}' || c == '\U{202F}' || c == '\U{205F}'
    || c == '\U{3000}' || c == '\U{FEFF}'
  }

  ghost predicate AllSpace(s: string) {
    forall k :: 0 <= k < |s| ==> IsSpace(s[k])
  }

  /** Neither end of `s` is whitespace. */
  predicate IsTrimmed(s: string) {
    s == [] || (!IsSpace(s[0]) && !IsSpace(s[|s| - 1]))
  }

  /** `r` is the slice `s[i..j]` and everything outside it is whitespace. */
  ghost predicate TrimAt(s: string, r: string, i: int, j: int) {
    0 <= i <= j <= |s| && r == s[i..j] && AllSpace(s[..i]) && AllSpace(s[j..])
  }

  /** `r` is `s` with a whitespace-only prefix and a whitespace-only suffix cut
      off, and no whitespace left at either end: the declarative meaning of trim. */
  ghost predicate IsTrimOf(s: string, r: string) {
    IsTrimmed(r) && exists i, j :: TrimAt(s, r, i, j)
  }

  function TrimStart(s: string): string {
    if |s| > 0 && IsSpace(s[0]) then TrimStart(s[1..]) else s
  }

  function TrimEnd(s: string): string {
    if |s| > 0 && IsSpace(s[|s| - 1]) then TrimEnd(s[..|s| - 1]) else s
  }

  /** `String.prototype.trim`. */
  function Trim(s: string): string {
    TrimEnd(TrimStart(s))
  }

  /** TrimStart removes exactly the leading whitespace. */
  lemma {:induction false} TrimStartSpec(s: string)
    ensures |TrimStart(s)| <= |s| && TrimStart(s) == s[|s| - |TrimStart(s)|..]
    ensures AllSpace(s[..|s| - |TrimStart(s)|])
    ensures TrimStart(s) == [] || !IsSpace(TrimStart(s)[0])
  {
    if |s| > 0 && IsSpace(s[0]) {
      var r := TrimStart(s[1..]);
      TrimStartSpec(s[1..]);
      assert TrimStart(s) == r;
      assert s[|s| - |r|..] == s[1..][|s| - 1 - |r|..];
      assert s[..|s| - |r|] == [s[0]] + s[1..][..|s| - 1 - |r|];
    }
  }

  /** TrimEnd removes exactly the trailing whitespace. */
  lemma {:induction false} TrimEndSpec(s: string)
    ensures |TrimEnd(s)| <= |s| && TrimEnd(s) == s[..|TrimEnd(s)|]
    ensures AllSpace(s[|TrimEnd(s)|..])
    ensures TrimEnd(s) == [] || !IsSpace(TrimEnd(s)[|TrimEnd(s)| - 1])
  {
    if |s| > 0 && IsSpace(s[|s| - 1]) {
      var r := TrimEnd(s[..|s| - 1]);
      TrimEndSpec(s[..|s| - 1]);
      assert s[|r|..] == s[..|s| - 1][|r|..] + [s[|s| - 1]];
    }
  }

  /** Trim cuts a whitespace-only prefix and suffix and leaves no whitespace at either end. */
  lemma TrimSpec(s: string)
    ensures IsTrimOf(s, Trim(s))
  {
    var t := TrimStart(s);
    var r := TrimEnd(t);
    TrimStartSpec(s);
    TrimEndSpec(t);
    var i := |s| - |t|;
    assert r == s[i..i + |r|];
    assert s[i + |r|..] == t[|r|..];
    assert TrimAt(s, r, i, i + |r|);
  }

  /** What a trimmed slice says about the characters around and at its ends. */
  lemma TrimAtFacts(s: string, r: string, i: int, j: int)
    requires TrimAt(s, r, i, j) && IsTrimmed(r)
    ensures forall k :: 0 <= k < i ==> IsSpace(s[k])
    ensures forall k :: j <= k < |s| ==> IsSpace(s[k])
    ensures r == [] <==> AllSpace(s)
    ensures r != [] ==> !IsSpace(s[i]) && !IsSpace(s[j - 1])
  {
    forall k | 0 <= k < i ensures IsSpace(s[k]) { assert s[..i][k] == s[k]; }
    forall k | j <= k < |s| ensures IsSpace(s[k]) { assert s[j..][k - j] == s[k]; }
    if r != [] {
      assert s[i] == r[0] && s[j - 1] == r[|r| - 1];
    }
  }

  /** A string has exactly one trimmed form. */
  lemma TrimOfUnique(s: string, r1: string, r2: string)
    requires IsTrimOf(s, r1) && IsTrimOf(s, r2)
    ensures r1 == r2
  {
    var i1, j1 :| TrimAt(s, r1, i1, j1);
    var i2, j2 :| TrimAt(s, r2, i2, j2);
    TrimAtFacts(s, r1, i1, j1);
    TrimAtFacts(s, r2, i2, j2);
    if r1 != [] {
      assert i1 == i2;
      assert j1 == j2;
    }
  }

  /** Both directions: a string is the trim of `s` exactly when it is `Trim(s)`. */
  lemma TrimCharacterization(s: string, r: string)
    ensures IsTrimOf(s, r) <==> r == Trim(s)
  {
    TrimSpec(s);
    if IsTrimOf(s, r) {
      TrimOfUnique(s, r, Trim(s));
    }
  }

  /** A trimmed string is its own trim. */
  lemma TrimmedIsFixed(s: string)
    requires IsTrimmed(s)
    ensures Trim(s) == s
  {
    assert TrimAt(s, s, 0, |s|);
    TrimSpec(s);
    TrimOfUnique(s, s, Trim(s));
  }

  /** Trimming twice is trimming once. */
  lemma TrimIdempotent(s: string)
    ensures Trim(Trim(s)) == Trim(s)
  {
    TrimSpec(s);
    TrimmedIsFixed(Trim(s));
  }

  /** Trim only removes characters: whatever it keeps was in the input. */
  lemma TrimKeepsContents(s: string, x: char)
    ensures x in Trim(s) ==> x in s
  {
    var r := Trim(s);
    TrimSpec(s);
    var i, j :| TrimAt(s, r, i, j);
    assert forall k :: 0 <= k < |r| ==> r[k] == s[i + k];
  }

  /** The trim is empty exactly when the input is all whitespace. */
  lemma TrimEmptyIffAllSpace(s: string)
    ensures Trim(s) == [] <==> AllSpace(s)
  {
    TrimSpec(s);
    var i, j :| TrimAt(s, Trim(s), i, j);
    TrimAtFacts(s, Trim(s), i, j);
  }

  /** A string that starts with a non-space character keeps that character first. */
  lemma TrimKeepsFirst(s: string)
    requires |s| > 0 && !IsSpace(s[0])
    ensures |Trim(s)| > 0 && Trim(s)[0] == s[0]
  {
    var r := Trim(s);
    TrimSpec(s);
    var i, j :| TrimAt(s, r, i, j);
    TrimAtFacts(s, r, i, j);
    assert i == 0;
  }

  /** Whitespace appended after `s` does not change its trim. */
  lemma TrimIgnoresTrailingSpace(s: string, m: nat)
    requires m <= |s| && AllSpace(s[m..])
    ensures Trim(s[..m]) == Trim(s)
  {
    var p := s[..m];
    var r := Trim(p);
    TrimSpec(p);
    TrimSpec(s);
    var i, j :| TrimAt(p, r, i, j);
    TrimAtFacts(p, r, i, j);
    assert r == s[i..j];
    assert s[..i] == p[..i];
    forall k | 0 <= k < |s| - j ensures IsSpace(s[j..][k]) {
      if j + k < m { assert p[j + k] == s[j + k]; } else { assert s[m..][j + k - m] == s[j + k]; }
    }
    assert TrimAt(s, r, i, j);
    TrimOfUnique(s, r, Trim(s));
  }

  /** Whitespace before `s` does not change its trim. */
  lemma TrimIgnoresLeadingSpace(s: string, m: nat)
    requires m <= |s| && AllSpace(s[..m])
    ensures Trim(s[m..]) == Trim(s)
  {
    var p := s[m..];
    var r := Trim(p);
    TrimSpec(p);
    var i, j :| TrimAt(p, r, i, j);
    TrimAtFacts(p, r, i, j);
    assert r == s[m + i..m + j];
    assert s[m + j..] == p[j..];
    var front := s[..m + i];
    forall k | 0 <= k < |front| ensures IsSpace(front[k]) {
      if k < m { assert s[..m][k] == s[k]; } else { assert p[k - m] == s[k]; }
    }
    assert TrimAt(s, r, m + i, m + j);
    TrimCharacterization(s, r);
  }

  /** The position of the first `c` in `s` (`String.prototype.indexOf`, with -1 as None). */
  function IndexOf(s: string, c: char): (r: Option<nat>)
    ensures r.None? <==> c !in s
    ensures r.Some? ==> r.value < |s| && s[r.value] == c && c !in s[..r.value]
  {
    if |s| == 0 then None
    else if s[0] == c then Some(0)
    else
      var rest := IndexOf(s[1..], c);
      if rest.None? then None
      else
        assert s[..rest.value + 1] == [s[0]] + s[1..][..rest.value];
        Some(rest.value + 1)
  }

  /** The first occurrence is the only one not preceded by another. */
  lemma IndexOfAt(s: string, c: char, i: nat)
    requires i < |s| && s[i] == c && c !in s[..i]
    ensures IndexOf(s, c) == Some(i)
  {
    var r := IndexOf(s, c);
    assert forall k :: 0 <= k < i ==> s[..i][k] == s[k];
    assert forall k :: 0 <= k < r.value ==> s[..r.value][k] == s[k];
  }

  /** `parts.join(c)`. */
  function JoinWith(parts: seq<string>, c: char): string
  {
    if |parts| == 0 then []
    else if |parts| == 1 then parts[0]
    else parts[0] + [c] + JoinWith(parts[1..], c)
  }

  /** `s.split(c)` for a one-character separator: the pieces between separators,
      always at least one, none containing the separator, and joining them back
      gives `s`. */
  function SplitOn(s: string, c: char): (parts: seq<string>)
    ensures |parts| >= 1
    ensures forall p :: p in parts ==> c !in p
    ensures JoinWith(parts, c) == s
    decreases |s|
  {
    match IndexOf(s, c)
    case None => [s]
    case Some(i) =>
      var rest := SplitOn(s[i + 1..], c);
      assert ([s[..i]] + rest)[1..] == rest;
      assert s == s[..i] + [c] + s[i + 1..];
      [s[..i]] + rest
  }

  /** Splitting a join cuts at the separator after the first piece. */
  lemma SplitJoinStep(parts: seq<string>, c: char)
    requires |parts| >= 2 && c !in parts[0]
    ensures SplitOn(JoinWith(parts, c), c) == [parts[0]] + SplitOn(JoinWith(parts[1..], c), c)
  {
    var s := JoinWith(parts, c);
    var p := parts[0];
    var tail := JoinWith(parts[1..], c);
    assert s == p + [c] + tail;
    assert s[..|p|] == p;
    assert s[|p| + 1..] == tail;
    IndexOfAt(s, c, |p|);
  }

  /** The other half of the round trip: splitting a join of separator-free
      pieces gives the pieces back. */
  lemma {:induction false} SplitJoinRoundTrip(parts: seq<string>, c: char)
    requires |parts| >= 1
    requires forall p :: p in parts ==> c !in p
    ensures SplitOn(JoinWith(parts, c), c) == parts
  {
    if |parts| == 1 {
      assert c !in parts[0];
    } else {
      assert parts[0] in parts;
      SplitJoinStep(parts, c);
      assert forall p :: p in parts[1..] ==> p in parts;
      SplitJoinRoundTrip(parts[1..], c);
      assert parts == [parts[0]] + parts[1..];
    }
  }

  /** JavaScript truthiness of an optional string: present and non-empty. */
  predicate Truthy(v: Option<string>) {
    v.Some? && v.value != ""
  }
}

=== FILE: launchers.dfy ===
/** The two local launchers, `dev-local.js` and `db-push-local.js`, as a
    function from what the outside world supplies (the text of `.env.local`
    if the file exists, the inherited environment, how the child ended) to
    what the launcher does: the child it starts, its own exit code, and
    whether it announces a successful schema update. */
module Launchers {
  import opened Wrappers
  import opened EnvFile
  import opened EnvOverlay
  import opened JsText

  /** How the spawned child ends: it could not be started (the `error`
      event), it ran and closed with a numeric exit code, or it was killed by
      a signal, which Node reports as a `close` event with a `null` code. */
  datatype ChildOutcome = SpawnError | Closed(code: int) | Signalled

  datatype Command = Command(program: string, args: seq<string>)

  /** A child process started with this command and environment. */
  datatype Launch = Launch(command: Command, env: Env)

  datatype Run = Run(launched: Option<Launch>, exitCode: int, announcesSuccess: bool)

  const DevServer: Command := Command("npx", ["tsx", "server/index.ts"])
  const SchemaPush: Command := Command("npx", ["drizzle-kit", "push"])

  /** Exit code of a launcher that stops itself: missing file or failed spawn. */
  const FailureExit: int := 1

  /** The launcher's exit code once the child has been spawned, as written:
      1 if it could not start, otherwise `process.exit(code)`, and Node exits
      with 0 when `code` is `null`. */
  function ChildExitAsWritten(child: ChildOutcome): (code: int)
    ensures code == 0 <==> child == Closed(0) || child == Signalled
    ensures child.Closed? ==> code == child.code
    ensures child.SpawnError? ==> code == FailureExit
  {
    match child
    case SpawnError => FailureExit
    case Closed(code) => code
    case Signalled => 0
  }

  /** The exit code as evidently intended: a child killed by a signal is a
      failure like one that could not start. */
  function ChildExit(child: ChildOutcome): (code: int)
    ensures code == 0 <==> child == Closed(0)
    ensures !child.Signalled? ==> code == ChildExitAsWritten(child)
  {
    match child
    case SpawnError => FailureExit
    case Closed(code) => code
    case Signalled => FailureExit
  }

  /** A child killed by a signal makes the launcher exit 0 as written, so the
      schema push then exits 0 without announcing success. */
  lemma SignalledChildExitsZero(content: string, inherited: Env)
    ensures ChildExitAsWritten(Signalled) == 0
    ensures !DbPushLocal(Some(content), inherited, Signalled).announcesSuccess
    ensures DevLocal(Some(content), inherited, Signalled).exitCode == FailureExit
    ensures DbPushLocal(Some(content), inherited, Signalled).exitCode == FailureExit
  {
  }

  /** `dev-local.js`: without `.env.local` it exits with 1 and starts nothing;
      otherwise it starts the development server with the overlaid environment
      (development mode forced) and exits as the child does. */
  function DevLocal(envFile: Option<string>, inherited: Env, child: ChildOutcome): (r: Run)
    ensures envFile.None? ==> r.launched.None? && r.exitCode == FailureExit
    ensures envFile.Some? ==>
      r.launched == Some(Launch(DevServer, DevChildEnv(inherited, LoadEnv(envFile.value))))
    ensures envFile.Some? && child.Closed? ==> r.exitCode == child.code
    ensures child.SpawnError? ==> r.exitCode == FailureExit
    ensures r.exitCode == 0 <==> envFile.Some? && child == Closed(0)
    ensures !r.announcesSuccess
  {
    match envFile
    case None => Run(None, FailureExit, false)
    case Some(content) =>
      Run(Some(Launch(DevServer, DevChildEnv(inherited, LoadEnv(content)))), ChildExit(child), false)
  }

  /** `db-push-local.js`: without `.env.local` it exits with 1 and starts
      nothing; otherwise it runs the schema push with the overlaid environment,
      announces success exactly when the push closes with 0, and exits as the
      child does. */
  function DbPushLocal(envFile: Option<string>, inherited: Env, child: ChildOutcome): (r: Run)
    ensures envFile.None? ==> r.launched.None? && r.exitCode == FailureExit
    ensures envFile.Some? ==>
      r.launched == Some(Launch(SchemaPush, DbPushChildEnv(inherited, LoadEnv(envFile.value))))
    ensures envFile.Some? && child.Closed? ==> r.exitCode == child.code
    ensures child.SpawnError? ==> r.exitCode == FailureExit
    ensures r.announcesSuccess <==> envFile.Some? && child == Closed(0)
    ensures r.announcesSuccess <==> r.exitCode == 0
  {
    match envFile
    case None => Run(None, FailureExit, false)
    case Some(content) =>
      Run(Some(Launch(SchemaPush, DbPushChildEnv(inherited, LoadEnv(content)))), ChildExit(child), child == Closed(0))
  }

  /** The run started a child whose environment maps `k` to `v`. */
  predicate ChildSees(r: Run, k: string, v: string) {
    r.launched.Some? && k in r.launched.value.env && r.launched.value.env[k] == v
  }

  /** A file holding an assignment, a comment, a blank line and a second
      assignment gives either child the two values whatever it inherited,
      and a child exiting with 3 makes either launcher exit with 3. */
  lemma SampleFileScenario(k1: string, v1: string, comment: string, k2: string, v2: string, inherited: Env)
    requires ValidKey(k1) && ValidKey(k2) && IsTrimmed(v1) && IsTrimmed(v2)
    requires |comment| > 0 && comment[0] == '#'
    requires '\n' !in k1 && '\n' !in v1 && '\n' !in comment && '\n' !in k2 && '\n' !in v2
    requires k1 != k2 && k1 != NodeEnv && k2 != NodeEnv
    ensures var content := k1 + "=" + v1 + "\n" + comment + "\n\n" + k2 + "=" + v2;
      var r := DevLocal(Some(content), inherited, Closed(3));
      && r.exitCode == 3
      && ChildSees(r, k1, v1) && ChildSees(r, k2, v2)
    ensures var content := k1 + "=" + v1 + "\n" + comment + "\n\n" + k2 + "=" + v2;
      var r := DbPushLocal(Some(content), inherited, Closed(3));
      && r.exitCode == 3 && !r.announcesSuccess
      && ChildSees(r, k1, v1) && ChildSees(r, k2, v2)
  {
    LoadEnvScenario(k1, v1, comment, k2, v2);
  }
}

=== FILE: publish.dfy ===
/** `createGitHubRepository` of `push-to-github.js` and the exit code the
    script ends with. GitHub's answers are parameters (one per endpoint the
    script calls); the model returns the calls made, in order, and how the
    push ended. An HTTP failure carries its `status`, when it has one. */
module Publish {
  import opened Wrappers
  import opened JsText
  import GitHubAuth
  import opened GitTree
  import FileWalk

  const RepoName: string := "devsecflow-platform"
  const CommitMessage: string := "Update: DevSecFlow platform with authentication system and UI fixes"
  /** The ref as `getRef`/`updateRef` name it, and as `createRef` does. */
  const MainHead: string := "heads/main"
  const MainRef: string := "refs/heads/main"
  const Unprocessable: int := 422
  const NotFound: int := 404

  datatype ApiError = ApiError(status: Option<int>)

  datatype Repo = Repo(htmlUrl: string)

  /** What GitHub answers each endpoint with: the login, the created repo,
      the existing repo, the new tree's sha, the sha `heads/main` points
      at, the new commit's sha, and the ref write. */
  datatype Server = Server(
    user: Result<string, ApiError>,
    createRepo: Result<Repo, ApiError>,
    getRepo: Result<Repo, ApiError>,
    createTree: Result<string, ApiError>,
    getRef: Result<string, ApiError>,
    createCommit: Result<string, ApiError>,
    writeRef: Result<(), ApiError>)

  /** A request to the REST API with the arguments that shape the result.
      Repository creation records only the name: the fixed description,
      `private: false` and `auto_init: false` are left out. A commit's
      `parents` is `None` when the key is left out. */
  datatype ApiCall =
    | GetAuthenticated
    | CreateRepo(name: string)
    | GetRepo(owner: string, repo: string)
    | CreateTree(owner: string, repo: string, tree: seq<TreeEntry>)
    | GetRef(owner: string, repo: string, ref: string)
    | CreateCommit(owner: string, repo: string, message: string, treeSha: string, parents: Option<seq<string>>)
    | UpdateRef(owner: string, repo: string, ref: string, sha: string)
    | CreateRef(owner: string, repo: string, ref: string, sha: string)

  datatype Failure =
    | AuthFailed(auth: GitHubAuth.AuthError)
    | ApiFailed(api: ApiError)
    | ReadFailed(read: TreeError)

  datatype Push = Push(calls: seq<ApiCall>, result: Result<Repo, Failure>)

  predicate HasStatus(r: Result<Repo, ApiError>, status: int) {
    r.Err? && r.error.status == Some(status)
  }

  /** Lines 86-108: create the repository; on 422 (it already exists) fetch
      it instead; any other failure propagates. */
  function EnsureRepo(s: Server, login: string): (r: (seq<ApiCall>, Result<Repo, ApiError>))
    ensures 1 <= |r.0| <= 2 && r.0[0] == CreateRepo(RepoName)
    ensures |r.0| == 2 <==> HasStatus(s.createRepo, Unprocessable)
    ensures GetRepo(login, RepoName) in r.0 <==> HasStatus(s.createRepo, Unprocessable)
    ensures r.1.Ok? <==> s.createRepo.Ok? || (HasStatus(s.createRepo, Unprocessable) && s.getRepo.Ok?)
    ensures s.createRepo.Ok? ==> r.1 == s.createRepo
    ensures HasStatus(s.createRepo, Unprocessable) ==> r.1 == s.getRepo
    ensures s.createRepo.Err? && !HasStatus(s.createRepo, Unprocessable) ==> r.1 == s.createRepo
  {
    match s.createRepo
    case Ok(_) => ([CreateRepo(RepoName)], s.createRepo)
    case Err(e) =>
      if e.status == Some(Unprocessable) then ([CreateRepo(RepoName), GetRepo(login, RepoName)], s.getRepo)
      else ([CreateRepo(RepoName)], Err(e))
  }

  /** Lines 136-151: the sha `heads/main` points at; 404 means there is no
      branch yet; any other failure propagates. */
  function ParentLookup(getRef: Result<string, ApiError>): (r: Result<Option<string>, ApiError>)
    ensures r.Ok? <==> getRef.Ok? || getRef.error.status == Some(NotFound)
    ensures r == Ok(None) <==> getRef.Err? && getRef.error.status == Some(NotFound)
    ensures getRef.Ok? ==> r == Ok(Some(getRef.value))
    ensures r.Err? ==> r.error == getRef.error
  {
    match getRef
    case Ok(sha) => Ok(Some(sha))
    case Err(e) => if e.status == Some(NotFound) then Ok(None) else Err(e)
  }

  /** Lines 161-163: `parents` is set only for a truthy parent sha. */
  function CommitParents(parent: Option<string>): (ps: Option<seq<string>>)
    ensures ps.Some? <==> Truthy(parent)
    ensures ps.Some? ==> ps.value == [parent.value]
  {
    if Truthy(parent) then Some([parent.value]) else None
  }

  /** Lines 168-185: move an existing branch, or create it. */
  function RefWrite(login: string, parent: Option<string>, commitSha: string): (c: ApiCall)
    ensures c.UpdateRef? <==> Truthy(parent)
    ensures c.UpdateRef? || c.CreateRef?
    ensures c.UpdateRef? ==> c == UpdateRef(login, RepoName, MainHead, commitSha)
    ensures c.CreateRef? ==> c == CreateRef(login, RepoName, MainRef, commitSha)
  {
    if Truthy(parent) then UpdateRef(login, RepoName, MainHead, commitSha)
    else CreateRef(login, RepoName, MainRef, commitSha)
  }

  /** The commit gets a parent exactly when the branch is moved rather than
      created, and then the branch was at that parent. */
  lemma ParentsMatchRefWrite(login: string, parent: Option<string>, commitSha: string)
    ensures CommitParents(parent).Some? <==> RefWrite(login, parent, commitSha).UpdateRef?
    ensures CommitParents(parent).None? <==> RefWrite(login, parent, commitSha).CreateRef?
  {
  }

  /** Lines 74-200, after the client is built from the access token. */
  function CreateGitHubRepository(auth: GitHubAuth.Outcome, s: Server, tree: Result<seq<TreeEntry>, TreeError>): (p: Push)
    ensures auth.Rejected? ==> p == Push([], Err(AuthFailed(auth.error)))
    ensures auth.Resolved? ==> |p.calls| >= 1 && p.calls[0] == GetAuthenticated
    ensures auth.Resolved? && s.user.Err? ==> p.result == Err(ApiFailed(s.user.error))
  {
    match auth
    case Rejected(e) => Push([], Err(AuthFailed(e)))
    case Resolved(_) =>
      match s.user
      case Err(e) => Push([GetAuthenticated], Err(ApiFailed(e)))
      case Ok(login) => AfterLogin(login, s, tree)
  }

  function AfterLogin(login: string, s: Server, tree: Result<seq<TreeEntry>, TreeError>): Push {
    var (repoCalls, repo) := EnsureRepo(s, login);
    var pre := [GetAuthenticated] + repoCalls;
    match repo
    case Err(e) => Push(pre, Err(ApiFailed(e)))
    case Ok(rp) =>
      match tree
      case Err(te) => Push(pre, Err(ReadFailed(te)))
      case Ok(entries) =>
        var up := Upload(login, s, entries, rp);
        Push(pre + up.calls, up.result)
  }

  /** Lines 128-188: tree, parent lookup, commit, ref write; on success the
      push resolves with `repo`. */
  function Upload(login: string, s: Server, entries: seq<TreeEntry>, repo: Repo): (p: Push)
    ensures |p.calls| >= 1 && p.calls[0] == CreateTree(login, RepoName, entries)
    ensures p.result.Ok? ==> p.result == Ok(repo)
  {
    var c1 := [CreateTree(login, RepoName, entries)];
    match s.createTree
    case Err(e) => Push(c1, Err(ApiFailed(e)))
    case Ok(treeSha) =>
      var c2 := c1 + [GetRef(login, RepoName, MainHead)];
      match ParentLookup(s.getRef)
      case Err(e) => Push(c2, Err(ApiFailed(e)))
      case Ok(parent) =>
        var c3 := c2 + [CreateCommit(login, RepoName, CommitMessage, treeSha, CommitParents(parent))];
        match s.createCommit
        case Err(e) => Push(c3, Err(ApiFailed(e)))
        case Ok(commitSha) =>
          var c4 := c3 + [RefWrite(login, parent, commitSha)];
          match s.writeRef
          case Err(e) => Push(c4, Err(ApiFailed(e)))
          case Ok(_) => Push(c4, Ok(repo))
  }

  /** Lines 202-211: exit 0 on success, 1 on any rejection. */
  function ExitCode(p: Push): int {
    if p.result.Ok? then 0 else 1
  }

  /** Every step must succeed, except that a 422 on creation is recovered by
      fetching the repository and a 404 on the ref lookup by an initial commit. */
  predicate AllStepsSucceed(auth: GitHubAuth.Outcome, s: Server, tree: Result<seq<TreeEntry>, TreeError>) {
    && auth.Resolved?
    && s.user.Ok?
    && (s.createRepo.Ok? || (HasStatus(s.createRepo, Unprocessable) && s.getRepo.Ok?))
    && tree.Ok?
    && s.createTree.Ok?
    && (s.getRef.Ok? || s.getRef.error.status == Some(NotFound))
    && s.createCommit.Ok?
    && s.writeRef.Ok?
  }

  lemma ExitZeroIffAllStepsSucceed(auth: GitHubAuth.Outcome, s: Server, tree: Result<seq<TreeEntry>, TreeError>)
    ensures ExitCode(CreateGitHubRepository(auth, s, tree)) == 0 <==> AllStepsSucceed(auth, s, tree)
  {
  }

  /** A successful push ends with the ref write, just after the commit; the
      commit names the new tree and, when the branch is moved, its old head. */
  lemma SuccessfulPushShape(auth: GitHubAuth.Outcome, s: Server, tree: Result<seq<TreeEntry>, TreeError>)
    requires AllStepsSucceed(auth, s, tree)
    ensures var calls := CreateGitHubRepository(auth, s, tree).calls;
      var login := s.user.value;
      var parent := if s.getRef.Ok? then Some(s.getRef.value) else None;
      |calls| == 5 + |EnsureRepo(s, login).0| &&
      calls[0] == GetAuthenticated &&
      calls[1..|calls| - 4] == EnsureRepo(s, login).0 &&
      calls[|calls| - 4] == CreateTree(login, RepoName, tree.value) &&
      calls[|calls| - 3] == GetRef(login, RepoName, MainHead) &&
      calls[|calls| - 2] == CreateCommit(login, RepoName, CommitMessage, s.createTree.value, CommitParents(parent)) &&
      calls[|calls| - 1] == RefWrite(login, parent, s.createCommit.value)
  {
  }

  /** No branch yet: an initial commit without parents, then `createRef`. */
  lemma MissingBranchCreatesRef(auth: GitHubAuth.Outcome, s: Server, tree: Result<seq<TreeEntry>, TreeError>)
    requires AllStepsSucceed(auth, s, tree)
    requires s.getRef.Err?
    ensures var calls := CreateGitHubRepository(auth, s, tree).calls;
      calls[|calls| - 2].parents == None &&
      calls[|calls| - 1] == CreateRef(s.user.value, RepoName, MainRef, s.createCommit.value)
  {
    SuccessfulPushShape(auth, s, tree);
  }

  /** An existing branch: a commit on top of its head, then `updateRef`. */
  lemma ExistingBranchUpdatesRef(auth: GitHubAuth.Outcome, s: Server, tree: Result<seq<TreeEntry>, TreeError>)
    requires AllStepsSucceed(auth, s, tree)
    requires s.getRef.Ok? && s.getRef.value != ""
    ensures var calls := CreateGitHubRepository(auth, s, tree).calls;
      calls[|calls| - 2].parents == Some([s.getRef.value]) &&
      calls[|calls| - 1] == UpdateRef(s.user.value, RepoName, MainHead, s.createCommit.value)
  {
    SuccessfulPushShape(auth, s, tree);
  }

  /** Nothing is asked of GitHub before the access token is obtained, and
      nothing is uploaded when the repository step or a file read fails. */
  lemma FailuresStopEarly(auth: GitHubAuth.Outcome, s: Server, tree: Result<seq<TreeEntry>, TreeError>)
    ensures auth.Rejected? ==> CreateGitHubRepository(auth, s, tree).calls == []
    ensures auth.Resolved? && s.user.Ok? && tree.Err? ==>
      forall c :: c in CreateGitHubRepository(auth, s, tree).calls ==> !c.CreateTree?
  {
  }

  // ------------------------------------------------------- walk to upload

  /** Lines 74-133 with the file collection in place: the files come from
      the walk from `.` and are read into the tree before the upload. */
  function PushProject(auth: GitHubAuth.Outcome, s: Server, root: seq<FileWalk.Entry>,
                       read: string -> Option<string>): Push {
    CreateGitHubRepository(auth, s, TreeOf(FileWalk.WalkFromRoot(root), read))
  }

  /** Once the repository exists and every file reads, `createTree` is sent
      one blob per walked file, in the walk's order, under the walked path
      itself and with the file's content. */
  lemma UploadCarriesWalk(auth: GitHubAuth.Outcome, s: Server, root: seq<FileWalk.Entry>,
                          read: string -> Option<string>)
    requires auth.Resolved? && s.user.Ok? && EnsureRepo(s, s.user.value).1.Ok?
    requires FirstUnreadable(FileWalk.WalkFromRoot(root), read).None?
    ensures var files := FileWalk.WalkFromRoot(root);
      var tree := TreeOf(files, read).value;
      CreateTree(s.user.value, RepoName, tree) in PushProject(auth, s, root, read).calls
      && |tree| == |files|
      && forall i :: 0 <= i < |files| ==> tree[i] == TreeEntry(files[i], BlobMode, BlobType, read(files[i]).value)
  {
    StripIsIdentityOnWalk(root);
    var files := FileWalk.WalkFromRoot(root);
    var tree := TreeOf(files, read).value;
    var up := Upload(s.user.value, s, tree, EnsureRepo(s, s.user.value).1.value);
    assert up.calls[0] in up.calls;
  }

  /** A walked file that cannot be read ends the push before `createTree`,
      naming the first such file in walk order. */
  lemma UnreadableFileStopsPush(auth: GitHubAuth.Outcome, s: Server, root: seq<FileWalk.Entry>,
                                read: string -> Option<string>)
    requires auth.Resolved? && s.user.Ok? && EnsureRepo(s, s.user.value).1.Ok?
    requires FirstUnreadable(FileWalk.WalkFromRoot(root), read).Some?
    ensures var files := FileWalk.WalkFromRoot(root);
      var p := PushProject(auth, s, root, read);
      p.result == Err(ReadFailed(Unreadable(files[FirstUnreadable(files, read).value])))
      && forall c :: c in p.calls ==> !c.CreateTree?
  {
  }
}

=== FILE: wrappers.dfy ===
/** Optional values and success/failure results, used wherever the scripts
    test a value for presence or throw an error. */
module Wrappers {

  /** A value that may be absent: a missing environment variable, file or field. */
  datatype Option<+T> = None | Some(value: T)

  /** Either a value or the error a script would throw instead of producing it. */
  datatype Result<+T, +E> = Ok(value: T) | Err(error: E)
}
